=== FILE: README.md ===
# Operational-loss UoM grouping: a Dafny model

This project models the deterministic core of a Streamlit application for
grouping operational-loss *units of measure* (UoMs). The core has five parts:

- **`calculate_ks_distance`** is the two-sample Kolmogorov–Smirnov sweep. It
  sorts both samples and walks two cursors. On a tie it takes the first
  sample's element. It then drains whichever sample is left against a
  saturated 1. The source holds three identical copies, and
  `KsDistance.CalculateKsDistance` models all of them. Its reference
  definition `KsValue` is the largest ECDF gap |a_k/n1 − b_k/n2| over the
  prefixes of the stable merge, with ties going to the first sample.
- **`create_ks_distance_matrix`** builds a square matrix over the sorted
  distinct `uom_id`s. It fills the upper triangle, diagonal included, and
  mirrors each value into the lower triangle.
- **`assess_homogeneity`** checks its input in a fixed order and partitions
  the rows by `grouped_uom_id`. A group with fewer than two losses gets the
  NaN sentinel. In exact arithmetic, so does a group whose losses are all
  equal: its standard deviation is 0, and scipy's normal distribution with
  scale 0 gives NaN.
  Any other group gets a one-sample statistic.
- **`group_uoms_by_business_knowledge`** has two variants. The page's variant
  copies the table and labels the selected rows 9999. The library's variant
  works in place and labels them with a hash of the sorted selection.
- **`generate_synthetic_data`** validates its two severity ranges and lays
  its rows out in blocks, one block per UoM. The random draws are inputs.

The model follows the code and not the textbook statistic. The distance is
not symmetric, and it is never 0 on two non-empty samples. A sample is not at
distance 0 from itself, so the matrix diagonal is not 0. Four of the five
expected values in `tests/test_0.py` differ from what the code computes.
`KsExamples.KsTestCases` states the values the code computes instead.

Modules:

| module | file | contents |
|---|---|---|
| Wrappers | wrappers.dfy | `Result` and `Option`, which stand for raised exceptions and optional columns |
| Selection | selection.dfy | `df[df[key] == g][value]`: the values of the rows with one key, in row order |
| Sorting | sorting.dfy | insertion sort under a total order; the order on reals and the Python order on strings; `sorted(unique(..))` on ints |
| LossData | loss_data.dfy | the loss row, the two option lists, the `uom_id` and `loss_amount` columns, and the losses of one UoM |
| KsDistance | ks_distance.dfy | the sweep, its reference definition and its properties |
| KsExamples | ks_examples.dfy | concrete distances |
| DistanceMatrix | distance_matrix.dfy | `create_ks_distance_matrix` |
| MatrixExamples | matrix_examples.dfy | a concrete matrix entry |
| UomGrouping | uom_grouping.dfy | both relabelling variants |
| Homogeneity | homogeneity.dfy | a DataFrame as named columns, plus `assess_homogeneity` |
| DataGeneration | data_generation.dfy | range checks and row layout of the generator |
| Pipeline | pipeline.dfy | a grouped table handed on to the assessment |

## Model

| member | source | states |
|---|---|---|
| KsDistance.CalculateKsDistance | application_pages/uom_grouping.py:8-40 | If either sample is empty the result is exactly 0.0. Otherwise it is the largest gap between the two ECDFs over every prefix of the stable merge of the sorted samples, with ties going to the first sample. |
| KsDistance.Sweep | application_pages/uom_grouping.py:16-40 | On two non-empty sorted samples, the three loops together return the largest prefix gap of their merge. |
| KsDistance.SweepBoth | application_pages/uom_grouping.py:19-29 | The two-cursor loop stops once one sample is used up. At that point it has consumed exactly the first i + j merged elements, i of them from the first sample, and `d` is the largest gap over those prefixes. |
| KsDistance.DrainFirst | application_pages/uom_grouping.py:30-34 | Draining the first sample against cdf2 = 1 extends the merge state until the first sample is used up. |
| KsDistance.DrainSecond | application_pages/uom_grouping.py:35-39 | Draining the second sample against cdf1 = 1 ends with the largest gap over the whole merge. |
| KsDistance.AdvanceFirst | application_pages/uom_grouping.py:20-24 | Taking the first sample's element on `data1[i] <= data2[j]` is one step of the merge. The new gap is \|(i+1)/n1 − j/n2\|. |
| KsDistance.AdvanceSecond | application_pages/uom_grouping.py:25-29 | Taking the second sample's element on `data1[i] > data2[j]` is one step of the merge. The new gap is \|i/n1 − (j+1)/n2\|. |
| KsDistance.SortSample | application_pages/uom_grouping.py:10-11 | `np.sort` returns an ascending permutation of its input. |
| KsDistance.MergeCountsFirst | application_pages/uom_grouping.py:19-39 | The merge consumes every element of the first sample. |
| KsDistance.CountFirstMonotone | application_pages/uom_grouping.py:19-29 | Along the merge the consumed counts of both samples never decrease. |
| KsDistance.GapInUnit | application_pages/uom_grouping.py:21-22 | Every candidate \|a/n1 − b/n2\| with a ≤ n1 and b ≤ n2 lies in [0, 1]. |
| KsDistance.MaxGapIsMax | application_pages/uom_grouping.py:23 | The running `max` bounds every gap seen so far, and some prefix attains it. |
| KsDistance.KsIsPrefixMax | definitions/definitions.py:3-35 | On non-empty samples every prefix gap is at most the result, and some prefix equals it. |
| KsDistance.KsInUnit | definitions/definitions.py:3-35 | The result lies in [0, 1] for all inputs, empty ones included. |
| KsDistance.KsPositive | application_pages/homogeneity_assessment.py:10-42 | On two non-empty samples the result is at least 1/n1 or at least 1/n2, so it is never 0. |
| KsDistance.KsOrderInsensitive | application_pages/uom_grouping.py:10-11 | Permuting either sample does not change the result. |
| KsDistance.KsSeparatedBelow | application_pages/uom_grouping.py:19-29 | If every value of the first sample is <= every value of the second, the result is 1.0. Ties count as below. |
| KsDistance.KsSeparatedAbove | application_pages/uom_grouping.py:19-29 | If every value of the second sample is < every value of the first, the result is 1.0. |
| KsExamples.KsOfSorted | application_pages/uom_grouping.py:10-11 | On samples that are already sorted, the result is the largest prefix gap of their direct merge. |
| KsExamples.KsNotSymmetric | application_pages/uom_grouping.py:20 | [1] vs [1, 2] gives 1.0, while [1, 2] vs [1] gives 0.5. |
| KsExamples.KsSelfDistance | tests/test_0.py:7 | [1, 2, 3] against itself gives 1/3, where the test expects 0.0. |
| KsExamples.KsOneTwoThreeVsOneTwoFour | tests/test_0.py:8 | [1, 2, 3] vs [1, 2, 4] gives 1/3, where the test expects 1/6. |
| KsExamples.KsSeparatedThree | tests/test_0.py:6 | [1, 2, 3] vs [4, 5, 6] gives 1.0, where the test expects 0.0. |
| KsExamples.KsSeparatedFive | tests/test_0.py:9 | [1..5] vs [6..10] gives 1.0, where the test expects 0.0. |
| KsExamples.KsSeparatedConstant | tests/test_0.py:10 | Five 1s vs five 2s gives 1.0, as the test expects. |
| KsExamples.KsTestCases | tests/test_0.py:5-13 | The five parametrised cases give 1.0, 1/3, 1/3, 1.0 and 1.0. |
| Sorting.SortSorted | application_pages/uom_grouping.py:10-11 | Insertion sort under a total order returns a sorted permutation. |
| Sorting.SortedUnique | application_pages/uom_grouping.py:10-11 | Under a total order there is exactly one sorted arrangement of a multiset. |
| Sorting.SortPermutationInvariant | definitions/definitions.py:74 | Sorting two permutations of the same list gives the same list. |
| Sorting.SortOfSorted | application_pages/uom_grouping.py:10-11 | Sorting a sorted list returns it unchanged. |
| Sorting.StrLeTotal | definitions/definitions.py:74 | Python's string order, code point by code point with a proper prefix first, is a total order. |
| Sorting.SortedDistinct | application_pages/uom_grouping.py:58 | `sorted(unique(ids))` is strictly ascending and holds exactly the values present. |
| Selection.Where | application_pages/homogeneity_assessment.py:62 | A key's selection is non-empty iff the key occurs in the key column. |
| Selection.Positions | application_pages/uom_grouping.py:61 | The rows carrying a key, listed in ascending order. Each listed row carries the key, and no such row is missing. |
| Selection.WhereAtPositions | application_pages/uom_grouping.py:61 | The selection has one value per row carrying the key, and its i-th value is the value of the i-th such row. |
| Selection.WhereMembers | application_pages/homogeneity_assessment.py:62 | A value is selected iff some row carries both the key and that value. |
| Selection.WhereCount | application_pages/homogeneity_assessment.py:62 | The selection's length is the number of occurrences of the key. |
| LossData.LossesOfRows | application_pages/uom_grouping.py:61 | The losses of a UoM are the `loss_amount`s of exactly the rows whose `uom_id` is that UoM, in row order. |
| DistanceMatrix.CreateKsDistanceMatrix | application_pages/uom_grouping.py:56-70 | The labels are the distinct `uom_id`s in ascending order. The matrix is k×k, and M[p][q] = M[q][p] = ks(losses(id_p), losses(id_q)) for p <= q. |
| DistanceMatrix.DistinctUomIds | application_pages/uom_grouping.py:58 | The labels are strictly ascending and are exactly the ids some row carries. |
| DistanceMatrix.FillAll | application_pages/uom_grouping.py:57-69 | The matrix keeps the given labels, is k×k, and has M[p][q] = M[q][p] = ks(losses(id_p), losses(id_q)) for p <= q. |
| DistanceMatrix.FillRows | application_pages/uom_grouping.py:63-69 | After the outer loop every pair p <= q holds ks(losses(id_p), losses(id_q)) at (p, q) and at (q, p). |
| DistanceMatrix.SetMirrored | application_pages/uom_grouping.py:68-69 | Writing d at (i, j) and at (j, i) keeps the matrix k×k, puts d in both cells and changes no other cell. |
| DistanceMatrix.FillRow | application_pages/uom_grouping.py:64-69 | The inner loop fills row i from the diagonal rightwards and mirrors each value. Afterwards rows 0..i are complete. |
| DistanceMatrix.FillStep | application_pages/uom_grouping.py:67-69 | Writing (i, j) and (j, i) extends the filled region by one entry and leaves every other cell as it was. |
| DistanceMatrix.UomIdsMembers | application_pages/uom_grouping.py:58 | An id is in the `uom_id` column iff some row carries it. |
| DistanceMatrix.EntriesInUnit | application_pages/uom_grouping.py:56-70 | Every entry lies in [0, 1]. |
| MatrixExamples.DiagonalNotZero | application_pages/uom_grouping.py:63-69 | The diagonal is computed as ks(s, s) and not forced to 0: one UoM with losses 1, 2, 3 has diagonal 1/3. |
| UomGrouping.AnyTrue | application_pages/uom_grouping.py:49 | `mask.any()` holds iff some row is marked. |
| UomGrouping.Relabel | application_pages/uom_grouping.py:45-53 | Selected rows get the group id. Every other row keeps its `uom_id`. |
| UomGrouping.GroupByBusinessKnowledge | application_pages/uom_grouping.py:42-54 | The returned table has the same rows plus a `grouped_uom_id` column. That column is 9999 exactly on the rows whose event type is selected, and `uom_id` elsewhere. |
| UomGrouping.SelectionId | definitions/definitions.py:74 | The hashed id is the hash of the one ascending arrangement of the selected names, whatever order they were given in. |
| UomGrouping.GroupByBusinessKnowledgeHashed | definitions/definitions.py:65-81 | The same relabelling with the id `hash(tuple(sorted(selected)))` in place of 9999. |
| UomGrouping.GroupInPlace | definitions/definitions.py:68-81 | The in-place variant writes the column into the caller's frame and returns that same frame. |
| UomGrouping.GroupCopy | application_pages/uom_grouping.py:44 | The copying variant returns a new frame and leaves the caller's table alone. |
| UomGrouping.NoMatchKeepsUomIds | definitions/definitions.py:68-79 | In both variants, an empty selection or one that matches no row leaves `grouped_uom_id = uom_id` on every row. |
| UomGrouping.SelectAllGivesOneGroup | tests/test_2.py:35-39 | Selecting every event type present leaves exactly one distinct grouped id. |
| UomGrouping.SelectionIdOrderInsensitive | definitions/definitions.py:74 | The hashed id depends only on the selection's contents, not on its order. |
| UomGrouping.HashedOrderInsensitive | definitions/definitions.py:70-75 | Reordering the selection list does not change the in-place variant's result. |
| UomGrouping.CombinedIdCanCollide | application_pages/uom_grouping.py:53 | 9999 is not reserved: a UoM whose raw id is 9999 joins the combined group without being selected. |
| UomGrouping.SampleTableGroupCounts | tests/test_2.py:19-33 | With the copying variant, on the test table, selecting Fraud leaves 4 distinct ids, and selecting Fraud and IT Failure leaves 2. |
| UomGrouping.SampleTableFraudHashed | tests/test_2.py:19-23 | With the hashed in-place variant the test imports, selecting Fraud gives the ids {hash(("Fraud",)), 2, 4, 5}. They number 4 iff that hash is not 2, 4 or 5. |
| UomGrouping.SampleTableFraudItHashed | tests/test_2.py:28-31 | With the hashed variant, selecting Fraud and IT Failure gives {hash(("Fraud", "IT Failure")), 4}. They number 2 iff that hash is not 4. |
| Homogeneity.AssessHomogeneity | application_pages/homogeneity_assessment.py:44-71 | A non-DataFrame input raises TypeError. An empty table gives {}. The rest are checked in this order: missing `grouped_uom_id` raises KeyError, then missing `loss_amount` raises KeyError, then non-numeric losses raise TypeError, each iff the earlier checks passed. Otherwise the keys are exactly the distinct group ids, and each entry is computed from that group's own losses. |
| Homogeneity.PartitionGroups | application_pages/homogeneity_assessment.py:62 | The groups are exactly the keys present. Each group holds one loss per row carrying its key, as many as the key occurs, in row order. |
| Homogeneity.AssessGroup | application_pages/homogeneity_assessment.py:66-70 | A group with fewer than 2 losses gets the NaN sentinel. A group gets a statistic iff it has at least 2 losses and a nonzero standard deviation, and the statistic is `kstest(losses, mean, std)`. |
| Homogeneity.MissingIffTooFewOrConstant | application_pages/homogeneity_assessment.py:66-70 | In exact arithmetic, with the population standard deviation, a group gets NaN iff it has fewer than 2 losses or all its losses are equal. |
| Homogeneity.VarianceZero | application_pages/homogeneity_assessment.py:69 | The population variance of a non-empty list is 0 iff all its values are equal. |
| Homogeneity.SumSquaresZero | application_pages/homogeneity_assessment.py:69 | A sum of squared deviations is non-negative, and it is 0 iff every value equals the centre. |
| Homogeneity.GroupIsolation | application_pages/homogeneity_assessment.py:65-70 | A group's entry depends only on that group's losses. |
| Homogeneity.SampleFrameGroups | tests/test_5.py:5-12 | The test table's groups 1, 2 and 3 hold [100, 150], [200, 300, 350] and [400]. |
| Homogeneity.SampleFrameAssessment | tests/test_5.py:28-34 | The test table yields exactly the keys 1, 2 and 3. Group 3 gets the sentinel. Groups 1 and 2 hold distinct losses, so with the population standard deviation they get a statistic. |
| DataGeneration.RangeAccepted | application_pages/data_generation.py:8-11 | A range is accepted iff 0 <= low <= high, so the test on the upper bound never decides the outcome. |
| DataGeneration.GenerateSyntheticData | application_pages/data_generation.py:6-24 | A reversed mean range, or one with a negative bound, raises ValueError. Only after that do the same checks on the std range raise. A call that passes both checks returns num_uoms × events_per_uom rows, where row k has `uom_id` k div events_per_uom and the k-th draw. |
| DataGeneration.BlockLayoutContents | application_pages/data_generation.py:14-22 | Every id lies in 0..num_uoms−1, and block u starts with id u. Every event type is one of Fraud, Error, System Failure, and every business line is one of Retail, Investment, Corporate. |
| DataGeneration.BlockIndex | application_pages/data_generation.py:14-15 | Row u·m + e of the nested loops, for e < m, belongs to UoM u. |
| Pipeline.AsDataFrame | application_pages/data_generation.py:23 | A loss table seen as a DataFrame has columns of equal length. |
| Pipeline.AssessGroupedTable | application_pages/homogeneity_assessment.py:62-71 | Assessing a non-empty business-grouped table succeeds, with one entry per distinct grouped id. |
| Pipeline.AssessUngroupedTable | application_pages/homogeneity_assessment.py:55-56 | A non-empty table without `grouped_uom_id` is rejected with the KeyError naming that column. |

## Left out

- Floating point: the cdf ratios, the maximum and the losses are exact reals, so float rounding of `(i + 1) / n1` is not modelled. NaN losses and NaN group keys are excluded; pandas `groupby` drops NaN keys.
- `scipy.stats.kstest` against a normal distribution, and `np.std`, are parameters of `AssessHomogeneity`. The model does not compute the one-sample statistic or the square root in the standard deviation. What it needs of `np.std` is that it is 0 exactly when the population variance is 0; `np.var` and `np.mean` are computed exactly. The p-value is discarded, as in the source.
- Homogeneity.MissingIffTooFewOrConstant: holds in exact arithmetic only. In float64, [0.1, 0.1, 0.1] has mean 0.10000000000000002 and `np.std` about 1.4e-17, so `kstest` gives a finite statistic for equal losses. Conversely, [1e-200, 2e-200] has squared deviations that underflow to 0, so `np.std` is 0 and the source gives NaN for distinct losses.
- Homogeneity.AssessGroup: a standard deviation of 0 gives the sentinel. This is the NaN that `kstest` returns for a normal with scale 0. Otherwise the statistic returned by `kstest` is taken as a finite value.
- Randomness: the per-row draws of `np.random.uniform`, `np.random.lognormal`, `np.random.randint` and `np.random.choice` are one `draws` function indexed by row number. The lognormal shape of the losses is not modelled.
- `loss_date`, a Timestamp from 2023-01-01, is kept as the day offset 0..364.
- Python `hash` is salted per process, so it is a function parameter.
- Pandas mechanics: dtype detection is the column's constructor (`IntColumn`, `RealColumn`, `TextColumn`). `data.empty` is "no rows or no columns". Index labels, dict ordering and the `UoM <id>` matrix labels, kept here as the ids, are not modelled.
- Non-integer arguments to `range` in the generator, which raise TypeError in Python, are not modelled. Negative counts give no rows, as `range` does.
- UomGrouping.GroupInPlace and UomGrouping.GroupCopy: their aliasing contracts use `old` and `fresh` over a `Frame` object. The content of both results is stated by the pure functions they call.
- Streamlit pages (`run_uom_grouping`, `run_homogeneity_assessment`, `run_data_generation`), `plot_cdfs`, Plotly figures and `st.session_state` are user interface, not logic.
- `group_uoms_statistical_clustering` and `group_uoms_combined_approach` wrap scikit-learn KMeans. The tests import them, but their implementations are not part of this model.
- The duplicate copies of `calculate_ks_distance` (application_pages/homogeneity_assessment.py:10-42 and definitions/definitions.py:3-35), of `generate_synthetic_data` (definitions/definitions.py:40-61) and of `assess_homogeneity` (definitions/definitions.py:87-121) are textually the same logic. Each is modelled once.

=== FILE: data_generation.dfy ===
/** `generate_synthetic_data`: validates the two severity ranges, then emits
    `loss_events_per_uom` rows for each UoM id 0..num_uoms-1 in turn. The
    random draws (uniform mean and std, lognormal loss, day offset, event type
    and business line) are an input: `draws(k)` is what the k-th row drew. */
module DataGeneration {
  import opened Wrappers
  import opened LossData

  /** A choice among three options (`np.random.choice` over a 3-element list). */
  datatype Pick3 = First | Second | Third

  /** `np.random.randint(0, 365)`. */
  type DayOffset = d: int | 0 <= d < 365

  /** The random outcome consumed by one row. */
  datatype Draw = Draw(loss: real, day: DayOffset, eventType: Pick3, businessLine: Pick3)

  /** A `(low, high)` parameter range. */
  datatype Range = Range(low: real, high: real)

  datatype ValueError = ValueError(message: string)

  const InvalidMeanRange := ValueError("Invalid severity mean range.")
  const InvalidStdRange := ValueError("Invalid severity std range.")

  function Choose(p: Pick3, options: seq<string>): string
    requires |options| == 3
  {
    match p
    case First => options[0]
    case Second => options[1]
    case Third => options[2]
  }

  /** A range is rejected when reversed or when either bound is negative.
      Accepted ranges are exactly the ordered non-negative ones, so the test
      on the upper bound never decides the outcome. */
  function RangeAccepted(r: Range): (ok: bool)
    ensures ok <==> 0.0 <= r.low <= r.high
  {
    !(r.low > r.high || r.low < 0.0 || r.high < 0.0)
  }

  /** Number of iterations of Python's `range(n)`. */
  function RangeLength(n: int): nat
  {
    if n < 0 then 0 else n
  }

  /** The row built for UoM `uid` from one draw. */
  function RowOf(uid: int, d: Draw): Event
  {
    Event(uid, d.loss, d.day, Choose(d.eventType, EventTypes), Choose(d.businessLine, BusinessLines))
  }

  lemma MulSign(a: int, m: int)
    requires m > 0
    ensures a >= 1 ==> a * m >= m
    ensures a <= -1 ==> a * m <= -m
    ensures a * m > 0 ==> a > 0
  {
  }

  /** Row u * m + e, for e < m, belongs to block u. */
  lemma BlockIndex(u: nat, e: nat, m: nat)
    requires e < m
    ensures (u * m + e) / m == u
  {
    var k := u * m + e;
    var q, r := k / m, k % m;
    assert k == q * m + r && 0 <= r < m;
    assert (q - u) * m == e - r;
    MulSign(q - u, m);
  }

  /** Fewer than n * m rows reach fewer than n blocks. */
  lemma BlockBound(k: nat, n: nat, m: nat)
    requires m > 0 && k < n * m
    ensures k / m < n
  {
    var q, r := k / m, k % m;
    assert k == q * m + r && 0 <= r < m;
    assert (n - q) * m == n * m - q * m;
    MulSign(n - q, m);
  }

  /** Row k holds UoM id k div perUom and the k-th draw: ids 0..numUoms-1
      in contiguous blocks of perUom rows. */
  ghost predicate BlockLayout(rows: seq<Event>, numUoms: nat, perUom: nat, draws: nat -> Draw)
  {
    && |rows| == numUoms * perUom
    && forall k :: 0 <= k < |rows| ==> perUom > 0 && rows[k] == RowOf(k / perUom, draws(k))
  }

  method GenerateSyntheticData(numUoms: int, lossEventsPerUom: int, meanRange: Range, stdRange: Range,
                               draws: nat -> Draw)
    returns (r: Result<seq<Event>, ValueError>)
    ensures !RangeAccepted(meanRange) ==> r == Failure(InvalidMeanRange)
    ensures RangeAccepted(meanRange) && !RangeAccepted(stdRange) ==> r == Failure(InvalidStdRange)
    ensures RangeAccepted(meanRange) && RangeAccepted(stdRange) ==> r.Success?
    ensures r.Success? ==> BlockLayout(r.value, RangeLength(numUoms), RangeLength(lossEventsPerUom), draws)
  {
    if meanRange.low > meanRange.high || meanRange.low < 0.0 || meanRange.high < 0.0 {
      return Failure(InvalidMeanRange);
    }
    if stdRange.low > stdRange.high || stdRange.low < 0.0 || stdRange.high < 0.0 {
      return Failure(InvalidStdRange);
    }
    var m := RangeLength(lossEventsPerUom);
    var rows: seq<Event> := [];
    var uid := 0;
    while uid < numUoms
      invariant 0 <= uid <= RangeLength(numUoms)
      invariant |rows| == uid * m
      invariant forall k :: 0 <= k < |rows| ==> m > 0 && rows[k] == RowOf(k / m, draws(k))
    {
      var e := 0;
      while e < lossEventsPerUom
        invariant 0 <= e <= m
        invariant |rows| == uid * m + e
        invariant forall k :: 0 <= k < |rows| ==> m > 0 && rows[k] == RowOf(k / m, draws(k))
      {
        BlockIndex(uid, e, m);
        rows := rows + [RowOf(uid, draws(|rows|))];
        e := e + 1;
      }
      uid := uid + 1;
    }
    return Success(rows);
  }

  /** Every row's UoM id lies in 0..num_uoms-1, each id in that range occurs,
      and every event type and business line is one of the three constants. */
  lemma BlockLayoutContents(rows: seq<Event>, numUoms: nat, perUom: nat, draws: nat -> Draw)
    requires BlockLayout(rows, numUoms, perUom, draws)
    ensures forall k :: 0 <= k < |rows| ==> 0 <= rows[k].uomId < numUoms
    ensures forall k :: 0 <= k < |rows| ==> rows[k].eventType in EventTypes && rows[k].businessLine in BusinessLines
    ensures perUom > 0 ==> forall u :: 0 <= u < numUoms ==> rows[u * perUom].uomId == u
  {
    forall k | 0 <= k < |rows|
      ensures 0 <= rows[k].uomId < numUoms
    {
      BlockBound(k, numUoms, perUom);
    }
    if perUom > 0 {
      forall u | 0 <= u < numUoms
        ensures rows[u * perUom].uomId == u
      {
        assert u * perUom < numUoms * perUom;
        BlockIndex(u, 0, perUom);
      }
    }
  }
}

=== FILE: distance_matrix.dfy ===
/** `create_ks_distance_matrix`: the KS distances between the loss samples of
    every pair of raw UoMs, indexed by the UoM ids in ascending order. Only
    the upper triangle (diagonal included) is computed; each value is mirrored
    into the lower triangle. The diagonal is whatever the sweep gives a sample
    against itself, which is not 0 (see `MatrixExamples.DiagonalNotZero`). */
module DistanceMatrix {
  import opened Sorting
  import opened LossData
  import opened KsDistance
  import opened Selection

  /** Row and column labels (`UoM <id>`) are kept as the ids themselves. */
  datatype LabelledMatrix = LabelledMatrix(ids: seq<int>, cells: seq<seq<real>>)

  ghost predicate Square(cells: seq<seq<real>>, n: nat)
  {
    |cells| == n && forall p :: 0 <= p < n ==> |cells[p]| == n
  }

  /** `calculate_ks_distance` of the losses of UoMs `ids[p]` and `ids[q]`: the
      value stored at (p, q) for p <= q, and mirrored at (q, p). */
  ghost function PairDistance(data: seq<Event>, ids: seq<int>, p: nat, q: nat): real
    requires p < |ids| && q < |ids|
  {
    KsValue(LossesOf(data, ids[p]), LossesOf(data, ids[q]))
  }

  /** Entries (p, q) with p < rows, or p == rows and q < cols, are filled. */
  ghost predicate Filled(data: seq<Event>, ids: seq<int>, cells: seq<seq<real>>, rows: nat, cols: nat)
    requires Square(cells, |ids|)
  {
    forall p, q :: 0 <= p <= q < |ids| && (p < rows || (p == rows && q < cols)) ==>
      cells[p][q] == PairDistance(data, ids, p, q) && cells[q][p] == PairDistance(data, ids, p, q)
  }

  function Zeros(n: nat): (m: seq<seq<real>>)
    ensures Square(m, n)
  {
    seq(n, _ => seq(n, _ => 0.0))
  }

  /** Writes `d` at (i, j) and at (j, i). */
  function SetMirrored(cells: seq<seq<real>>, n: nat, i: nat, j: nat, d: real): (r: seq<seq<real>>)
    requires Square(cells, n) && i < n && j < n
    ensures Square(r, n)
    ensures r[i][j] == d && r[j][i] == d
    ensures forall p, q :: 0 <= p < n && 0 <= q < n && !(p == i && q == j) && !(p == j && q == i) ==>
      r[p][q] == cells[p][q]
  {
    var c := cells[i := cells[i][j := d]];
    c[j := c[j][i := d]]
  }

  /** Filling (i, j) and its mirror extends the filled region by one entry. */
  lemma FillStep(data: seq<Event>, ids: seq<int>, cells: seq<seq<real>>, i: nat, j: nat, d: real)
    requires Square(cells, |ids|) && i <= j < |ids|
    requires Filled(data, ids, cells, i, j)
    requires d == PairDistance(data, ids, i, j)
    ensures Filled(data, ids, SetMirrored(cells, |ids|, i, j, d), i, j + 1)
  {
  }

  /** A completed row i is the same region as row i + 1 with nothing filled yet. */
  lemma FillNextRow(data: seq<Event>, ids: seq<int>, cells: seq<seq<real>>, i: nat)
    requires Square(cells, |ids|) && i < |ids|
    requires Filled(data, ids, cells, i, |ids|)
    ensures Filled(data, ids, cells, i + 1, 0)
  {
  }

  lemma UomIdsMembers(data: seq<Event>)
    ensures forall id :: id in UomIds(data) <==> exists k :: 0 <= k < |data| && data[k].uomId == id
  {
    forall id
      ensures id in UomIds(data) <==> exists k :: 0 <= k < |data| && data[k].uomId == id
    {
      var ids := UomIds(data);
      assert |ids| == |data|;
      if id in ids {
        var k :| 0 <= k < |ids| && ids[k] == id;
        assert data[k].uomId == id;
      }
      if exists k :: 0 <= k < |data| && data[k].uomId == id {
        var k :| 0 <= k < |data| && data[k].uomId == id;
        assert ids[k] == id;
      }
    }
  }

  /** The inner loop: row i from the diagonal rightwards, each value mirrored. */
  method FillRow(data: seq<Event>, ids: seq<int>, cells: seq<seq<real>>, i: nat) returns (r: seq<seq<real>>)
    requires Square(cells, |ids|) && i < |ids|
    requires Filled(data, ids, cells, i, 0)
    ensures Square(r, |ids|)
    ensures Filled(data, ids, r, i + 1, 0)
  {
    r := cells;
    var n := |ids|;
    var j := i;
    while j < n
      invariant i <= j <= n
      invariant Square(r, n)
      invariant Filled(data, ids, r, i, j)
    {
      var distance := CalculateKsDistance(LossesOf(data, ids[i]), LossesOf(data, ids[j]));
      FillStep(data, ids, r, i, j, distance);
      r := SetMirrored(r, n, i, j, distance);
      j := j + 1;
    }
    FillNextRow(data, ids, r, i);
  }

  method CreateKsDistanceMatrix(data: seq<Event>) returns (m: LabelledMatrix)
    ensures StrictlyAscending(m.ids)
    ensures forall id :: id in m.ids <==> exists k :: 0 <= k < |data| && data[k].uomId == id
    ensures Square(m.cells, |m.ids|)
    ensures forall p, q :: 0 <= p <= q < |m.ids| ==>
      m.cells[p][q] == PairDistance(data, m.ids, p, q) && m.cells[q][p] == m.cells[p][q]
  {
    var ids := DistinctUomIds(data);
    m := FillAll(data, ids);
  }

  /** `sorted(data['uom_id'].unique())`. */
  method DistinctUomIds(data: seq<Event>) returns (ids: seq<int>)
    ensures StrictlyAscending(ids)
    ensures forall id :: id in ids <==> exists k :: 0 <= k < |data| && data[k].uomId == id
  {
    ids := SortedDistinct(UomIds(data));
    UomIdsMembers(data);
  }

  /** Both loops: rows 0 .. n-1, each filled from the diagonal rightwards. */
  method FillAll(data: seq<Event>, ids: seq<int>) returns (m: LabelledMatrix)
    ensures m.ids == ids
    ensures Square(m.cells, |m.ids|)
    ensures forall p, q :: 0 <= p <= q < |m.ids| ==>
      m.cells[p][q] == PairDistance(data, m.ids, p, q) && m.cells[q][p] == m.cells[p][q]
  {
    var cells := FillRows(data, ids);
    m := LabelledMatrix(ids, cells);
  }

  /** The outer loop: rows 0 .. n-1, each filled from the diagonal rightwards. */
  method FillRows(data: seq<Event>, ids: seq<int>) returns (cells: seq<seq<real>>)
    ensures Square(cells, |ids|)
    ensures Filled(data, ids, cells, |ids|, 0)
  {
    var n := |ids|;
    cells := Zeros(n);
    var i := 0;
    while i < n
      invariant 0 <= i <= n
      invariant Square(cells, n)
      invariant Filled(data, ids, cells, i, 0)
    {
      cells := FillRow(data, ids, cells, i);
      i := i + 1;
    }
  }

  /** Every entry lies in [0, 1]. */
  lemma EntriesInUnit(data: seq<Event>, ids: seq<int>, p: nat, q: nat)
    requires p < |ids| && q < |ids|
    ensures 0.0 <= PairDistance(data, ids, p, q) <= 1.0
  {
    KsInUnit(LossesOf(data, ids[p]), LossesOf(data, ids[q]));
  }
}

=== FILE: homogeneity.dfy ===
/** `assess_homogeneity`: validate the input table in a fixed order, partition
    the losses by `grouped_uom_id`, and give every group either the statistic
    of a one-sample KS test against a normal with the group's own mean and
    population standard deviation, or the missing-value sentinel (`np.nan`)
    when the group has fewer than two rows. In exact arithmetic a group whose
    losses are all equal has standard deviation 0, for which scipy's normal
    distribution is undefined and the test yields `nan` as well.

    The one-sample test (`scipy.stats.kstest`) and `np.std` are floating-point
    library calls and enter as parameters; the mean is computed exactly. */
module Homogeneity {
  import opened Wrappers
  import opened Selection

  /** A cell of a table, as a group key. */
  datatype Cell = IntCell(i: int) | RealCell(r: real) | TextCell(s: string)

  /** A column with its dtype; integer and float columns are numeric. */
  datatype Column = IntColumn(ints: seq<int>) | RealColumn(reals: seq<real>) | TextColumn(texts: seq<string>) {
    function Length(): nat
    {
      match this
      case IntColumn(xs) => |xs|
      case RealColumn(xs) => |xs|
      case TextColumn(xs) => |xs|
    }

    /** `pd.api.types.is_numeric_dtype`. */
    predicate IsNumeric()
    {
      IntColumn? || RealColumn?
    }

    function CellAt(k: nat): Cell
      requires k < Length()
    {
      match this
      case IntColumn(xs) => IntCell(xs[k])
      case RealColumn(xs) => RealCell(xs[k])
      case TextColumn(xs) => TextCell(xs[k])
    }

    function Cells(): seq<Cell>
    {
      seq(Length(), k requires 0 <= k < Length() => CellAt(k))
    }

    function Numbers(): (xs: seq<real>)
      requires IsNumeric()
      ensures |xs| == Length()
    {
      if IntColumn? then seq(|ints|, k requires 0 <= k < |ints| => ints[k] as real) else reals
    }
  }

  /** What the caller passes: a DataFrame (named columns of a common height)
      or any other value. */
  datatype Input = DataFrame(columns: map<string, Column>, height: nat) | OtherValue

  /** Every column of a DataFrame has the frame's height. */
  ghost predicate WellFormed(data: Input)
  {
    data.DataFrame? ==> forall c :: c in data.columns ==> data.columns[c].Length() == data.height
  }

  /** `DataFrame.empty`: no rows or no columns. */
  predicate IsEmpty(data: Input)
    requires data.DataFrame?
  {
    data.height == 0 || |data.columns| == 0
  }

  datatype Error = TypeError(message: string) | KeyError(message: string)

  const GroupColumn := "grouped_uom_id"
  const LossColumn := "loss_amount"

  const NotADataFrame := TypeError("Input data must be a Pandas DataFrame.")
  const MissingGroupColumn := KeyError("The 'grouped_uom_id' column is missing.")
  const MissingLossColumn := KeyError("The 'loss_amount' column is missing.")
  const NonNumericLosses := TypeError("The 'loss_amount' column must be numeric.")

  /** A group's entry: the test statistic, or the `np.nan` sentinel. */
  datatype Stat = Missing | Statistic(value: real)

  /** `groupby(key)[value].apply(list)`: one entry per distinct key, holding
      that key's values in row order. */
  function Partition(keys: seq<Cell>, values: seq<real>): map<Cell, seq<real>>
    requires |keys| == |values|
  {
    map g | g in keys :: Where(keys, values, g)
  }

  /** The groups are exactly the keys that occur, and each group holds one
      value per row carrying its key, in row order. */
  lemma PartitionGroups(keys: seq<Cell>, values: seq<real>)
    requires |keys| == |values|
    ensures forall g :: g in Partition(keys, values) <==> g in keys
    ensures forall g :: g in Partition(keys, values) ==>
      && |Partition(keys, values)[g]| == multiset(keys)[g] == |Positions(keys, g)|
      && forall i :: 0 <= i < |Partition(keys, values)[g]| ==>
           Partition(keys, values)[g][i] == values[Positions(keys, g)[i]]
  {
    forall g | g in keys
      ensures |Where(keys, values, g)| == multiset(keys)[g] == |Positions(keys, g)|
      ensures forall i :: 0 <= i < |Where(keys, values, g)| ==>
        Where(keys, values, g)[i] == values[Positions(keys, g)[i]]
    {
      WhereCount(keys, values, g);
      WhereAtPositions(keys, values, g);
    }
  }

  function Sum(xs: seq<real>): real
  {
    if |xs| == 0 then 0.0 else Sum(xs[..|xs| - 1]) + xs[|xs| - 1]
  }

  /** `np.mean`, exactly. */
  function Mean(xs: seq<real>): real
    requires |xs| > 0
  {
    Sum(xs) / |xs| as real
  }

  /** The population variance, `np.var`, exactly. */
  function Variance(xs: seq<real>): real
    requires |xs| > 0
  {
    SumSquares(xs, Mean(xs)) / |xs| as real
  }

  function Product(a: real, b: real): real
  {
    a * b
  }

  /** `x * x`, through `Product` because the solver does not derive the sign
      of a self-product `x * x` directly. */
  function Sq(x: real): real
  {
    Product(x, x)
  }

  function SumSquares(xs: seq<real>, m: real): real
  {
    if |xs| == 0 then 0.0 else SumSquares(xs[..|xs| - 1], m) + Sq(xs[|xs| - 1] - m)
  }

  /** What the model needs of `np.std`: it is zero exactly when the variance is. */
  ghost predicate StdOfVariance(std: seq<real> -> real)
  {
    forall xs: seq<real> :: |xs| > 0 ==> (std(xs) == 0.0 <==> Variance(xs) == 0.0)
  }

  /** The entry for one group: the sentinel for fewer than two rows, the
      `nan` scipy yields for a zero standard deviation, and otherwise the
      statistic of the test against the group's own mean and deviation. */
  function AssessGroup(losses: seq<real>, kstest: (seq<real>, real, real) -> real, std: seq<real> -> real): (s: Stat)
    ensures |losses| < 2 ==> s == Missing
    ensures s.Statistic? <==> |losses| >= 2 && std(losses) != 0.0
    ensures s.Statistic? ==> s.value == kstest(losses, Mean(losses), std(losses))
  {
    if |losses| < 2 then Missing
    else if std(losses) == 0.0 then Missing
    else Statistic(kstest(losses, Mean(losses), std(losses)))
  }

  /** In exact arithmetic, with the population standard deviation, a group
      gets the sentinel exactly when it has fewer than two rows or all its
      losses are equal. */
  lemma MissingIffTooFewOrConstant(losses: seq<real>, kstest: (seq<real>, real, real) -> real, std: seq<real> -> real)
    requires StdOfVariance(std)
    ensures AssessGroup(losses, kstest, std) == Missing <==>
      |losses| < 2 || forall i :: 0 <= i < |losses| ==> losses[i] == losses[0]
  {
    if |losses| >= 2 {
      VarianceZero(losses);
    }
  }

  lemma {:induction false} SumConstant(xs: seq<real>, c: real)
    requires forall i :: 0 <= i < |xs| ==> xs[i] == c
    ensures Sum(xs) == |xs| as real * c
  {
    if |xs| > 0 {
      SumConstant(xs[..|xs| - 1], c);
    }
  }

  lemma {:induction false} SumSquaresZero(xs: seq<real>, m: real)
    ensures SumSquares(xs, m) >= 0.0
    ensures SumSquares(xs, m) == 0.0 <==> forall i :: 0 <= i < |xs| ==> xs[i] == m
  {
    if |xs| > 0 {
      var n := |xs| - 1;
      SumSquaresZero(xs[..n], m);
      SquarePositive(xs[n] - m);
      assert forall i :: 0 <= i < n ==> xs[..n][i] == xs[i];
      if exists i :: 0 <= i < |xs| && xs[i] != m {
        var i :| 0 <= i < |xs| && xs[i] != m;
        if i < n {
          assert xs[..n][i] != m;
        }
      }
    }
  }

  lemma ProductPositive(a: real, b: real)
    requires a > 0.0 && b > 0.0
    ensures Product(a, b) > 0.0
  {
  }

  lemma SquarePositive(d: real)
    ensures Sq(d) >= 0.0
    ensures Sq(d) == 0.0 <==> d == 0.0
  {
    if d > 0.0 {
      ProductPositive(d, d);
    } else if d < 0.0 {
      ProductPositive(-d, -d);
      assert Product(-d, -d) == Product(d, d);
    } else {
      assert Product(d, d) == Product(0.0, 0.0);
    }
  }

  /** The variance is zero exactly when all values are equal. */
  lemma VarianceZero(xs: seq<real>)
    requires |xs| > 0
    ensures Variance(xs) == 0.0 <==> forall i :: 0 <= i < |xs| ==> xs[i] == xs[0]
  {
    var m := Mean(xs);
    SumSquaresZero(xs, m);
    if forall i :: 0 <= i < |xs| ==> xs[i] == xs[0] {
      SumConstant(xs, xs[0]);
      assert m == xs[0];
    }
  }

  /** The input passes every check and has rows. */
  predicate Assessable(data: Input)
  {
    && data.DataFrame?
    && !IsEmpty(data)
    && GroupColumn in data.columns
    && LossColumn in data.columns
    && data.columns[LossColumn].IsNumeric()
  }

  /** The group key of every row. */
  function GroupKeys(data: Input): seq<Cell>
    requires data.DataFrame? && GroupColumn in data.columns
  {
    data.columns[GroupColumn].Cells()
  }

  /** The losses of group `g` of a table that passes the checks. */
  function LossesOfGroup(data: Input, g: Cell): seq<real>
    requires WellFormed(data) && Assessable(data)
  {
    Where(GroupKeys(data), data.columns[LossColumn].Numbers(), g)
  }

  function AssessHomogeneity(data: Input, kstest: (seq<real>, real, real) -> real, std: seq<real> -> real)
    : (r: Result<map<Cell, Stat>, Error>)
    requires WellFormed(data)
    ensures data.OtherValue? <==> r == Failure(NotADataFrame)
    ensures data.DataFrame? && IsEmpty(data) ==> r == Success(map[])
    ensures r == Failure(MissingGroupColumn) <==>
      data.DataFrame? && !IsEmpty(data) && GroupColumn !in data.columns
    ensures r == Failure(MissingLossColumn) <==>
      data.DataFrame? && !IsEmpty(data) && GroupColumn in data.columns && LossColumn !in data.columns
    ensures r == Failure(NonNumericLosses) <==>
      data.DataFrame? && !IsEmpty(data) && GroupColumn in data.columns && LossColumn in data.columns
      && !data.columns[LossColumn].IsNumeric()
    ensures Assessable(data) ==> r.Success?
    ensures Assessable(data) ==> forall g :: g in r.value <==> g in GroupKeys(data)
    ensures Assessable(data) ==> forall g :: g in r.value ==>
      r.value[g] == AssessGroup(LossesOfGroup(data, g), kstest, std)
  {
    if data.OtherValue? then Failure(NotADataFrame)
    else if IsEmpty(data) then Success(map[])
    else if GroupColumn !in data.columns then Failure(MissingGroupColumn)
    else if LossColumn !in data.columns then Failure(MissingLossColumn)
    else if !data.columns[LossColumn].IsNumeric() then Failure(NonNumericLosses)
    else
      var groups := Partition(GroupKeys(data), data.columns[LossColumn].Numbers());
      Success(map g | g in groups :: AssessGroup(groups[g], kstest, std))
  }

  /** A group's entry depends on that group's own losses only: tables that
      agree on the losses of group `g` agree on its entry, whatever their other
      groups hold. */
  lemma GroupIsolation(data: Input, data': Input, g: Cell,
                       kstest: (seq<real>, real, real) -> real, std: seq<real> -> real)
    requires WellFormed(data) && WellFormed(data')
    requires Assessable(data) && Assessable(data')
    requires g in GroupKeys(data)
    requires LossesOfGroup(data, g) == LossesOfGroup(data', g)
    ensures g in AssessHomogeneity(data', kstest, std).value
    ensures AssessHomogeneity(data, kstest, std).value[g] == AssessHomogeneity(data', kstest, std).value[g]
  {
    assert |LossesOfGroup(data, g)| > 0;
  }

  /** The table of tests/test_5.py: groups 1, 1, 2, 2, 2, 3 with losses 100,
      150, 200, 300, 350, 400. */
  function SampleFrame(): Input
  {
    DataFrame(map[
      "uom_id" := IntColumn([1, 2, 3, 4, 5, 6]),
      "loss_amount" := IntColumn([100, 150, 200, 300, 350, 400]),
      GroupColumn := IntColumn([1, 1, 2, 2, 2, 3])], 6)
  }

  /** Grouped losses of the sample table, one group at a time. */
  lemma SampleGroupOne(keys: seq<Cell>, values: seq<real>)
    requires keys == [IntCell(1), IntCell(1), IntCell(2), IntCell(2), IntCell(2), IntCell(3)]
    requires values == [100.0, 150.0, 200.0, 300.0, 350.0, 400.0]
    ensures Where(keys, values, IntCell(1)) == [100.0, 150.0]
  {
    var g := IntCell(1);
    assert keys[..0] == [] && values[..0] == [];
    WhereStep(keys, values, g, 0);
    WhereStep(keys, values, g, 1);
    assert Where(keys[..2], values[..2], g) == [100.0, 150.0];
    WhereStep(keys, values, g, 2);
    WhereStep(keys, values, g, 3);
    WhereStep(keys, values, g, 4);
    assert Where(keys[..5], values[..5], g) == [100.0, 150.0];
    WhereStep(keys, values, g, 5);
    assert keys[..6] == keys && values[..6] == values;
  }

  lemma SampleGroupTwo(keys: seq<Cell>, values: seq<real>)
    requires keys == [IntCell(1), IntCell(1), IntCell(2), IntCell(2), IntCell(2), IntCell(3)]
    requires values == [100.0, 150.0, 200.0, 300.0, 350.0, 400.0]
    ensures Where(keys, values, IntCell(2)) == [200.0, 300.0, 350.0]
  {
    var g := IntCell(2);
    assert keys[..0] == [] && values[..0] == [];
    WhereStep(keys, values, g, 0);
    WhereStep(keys, values, g, 1);
    assert Where(keys[..2], values[..2], g) == [];
    WhereStep(keys, values, g, 2);
    WhereStep(keys, values, g, 3);
    WhereStep(keys, values, g, 4);
    assert Where(keys[..5], values[..5], g) == [200.0, 300.0, 350.0];
    WhereStep(keys, values, g, 5);
    assert keys[..6] == keys && values[..6] == values;
  }

  lemma SampleGroupThree(keys: seq<Cell>, values: seq<real>)
    requires keys == [IntCell(1), IntCell(1), IntCell(2), IntCell(2), IntCell(2), IntCell(3)]
    requires values == [100.0, 150.0, 200.0, 300.0, 350.0, 400.0]
    ensures Where(keys, values, IntCell(3)) == [400.0]
  {
    var g := IntCell(3);
    assert keys[..0] == [] && values[..0] == [];
    WhereStep(keys, values, g, 0);
    WhereStep(keys, values, g, 1);
    assert Where(keys[..2], values[..2], g) == [];
    WhereStep(keys, values, g, 2);
    WhereStep(keys, values, g, 3);
    WhereStep(keys, values, g, 4);
    assert Where(keys[..5], values[..5], g) == [];
    WhereStep(keys, values, g, 5);
    assert keys[..6] == keys && values[..6] == values;
  }

  lemma SampleFrameGroups()
    ensures WellFormed(SampleFrame()) && Assessable(SampleFrame())
    ensures GroupKeys(SampleFrame()) == [IntCell(1), IntCell(1), IntCell(2), IntCell(2), IntCell(2), IntCell(3)]
    ensures LossesOfGroup(SampleFrame(), IntCell(1)) == [100.0, 150.0]
    ensures LossesOfGroup(SampleFrame(), IntCell(2)) == [200.0, 300.0, 350.0]
    ensures LossesOfGroup(SampleFrame(), IntCell(3)) == [400.0]
  {
    var data := SampleFrame();
    var keys := GroupKeys(data);
    var values := data.columns[LossColumn].Numbers();
    assert keys == [IntCell(1), IntCell(1), IntCell(2), IntCell(2), IntCell(2), IntCell(3)];
    assert values == [100.0, 150.0, 200.0, 300.0, 350.0, 400.0];
    SampleGroupOne(keys, values);
    SampleGroupTwo(keys, values);
    SampleGroupThree(keys, values);
  }

  /** On that table the result has exactly the keys 1, 2 and 3; the
      single-row group 3 gets the sentinel and the others a statistic. */
  lemma SampleFrameAssessment(kstest: (seq<real>, real, real) -> real, std: seq<real> -> real)
    requires StdOfVariance(std)
    ensures var r := AssessHomogeneity(SampleFrame(), kstest, std);
      && r.Success?
      && r.value.Keys == {IntCell(1), IntCell(2), IntCell(3)}
      && r.value[IntCell(3)] == Missing
      && r.value[IntCell(1)].Statistic?
      && r.value[IntCell(2)].Statistic?
  {
    SampleFrameGroups();
    SampleDeviations(std);
    AssessSample(SampleFrame(), kstest, std);
  }

  lemma AssessSample(data: Input, kstest: (seq<real>, real, real) -> real, std: seq<real> -> real)
    requires std([100.0, 150.0]) != 0.0 && std([200.0, 300.0, 350.0]) != 0.0
    requires WellFormed(data) && Assessable(data)
    requires GroupKeys(data) == [IntCell(1), IntCell(1), IntCell(2), IntCell(2), IntCell(2), IntCell(3)]
    requires LossesOfGroup(data, IntCell(1)) == [100.0, 150.0]
    requires LossesOfGroup(data, IntCell(2)) == [200.0, 300.0, 350.0]
    requires LossesOfGroup(data, IntCell(3)) == [400.0]
    ensures var r := AssessHomogeneity(data, kstest, std);
      && r.Success?
      && r.value.Keys == {IntCell(1), IntCell(2), IntCell(3)}
      && r.value[IntCell(3)] == Missing
      && r.value[IntCell(1)].Statistic?
      && r.value[IntCell(2)].Statistic?
  {
    var r := AssessHomogeneity(data, kstest, std);
    var keys := GroupKeys(data);
    forall g
      ensures g in r.value <==> g in {IntCell(1), IntCell(2), IntCell(3)}
    {
      assert g in r.value <==> g in keys;
      assert g in keys <==> g == keys[0] || g == keys[2] || g == keys[5] by {
        assert keys == [keys[0], keys[0], keys[2], keys[2], keys[2], keys[5]];
      }
    }
    assert r.value.Keys == {IntCell(1), IntCell(2), IntCell(3)};
  }

  /** Groups 1 and 2 of the sample table have distinct losses. */
  lemma SampleDeviations(std: seq<real> -> real)
    requires StdOfVariance(std)
    ensures std([100.0, 150.0]) != 0.0 && std([200.0, 300.0, 350.0]) != 0.0
  {
    VarianceZero([100.0, 150.0]);
    VarianceZero([200.0, 300.0, 350.0]);
  }
}

=== FILE: ks_distance.dfy ===
/** The two-sample Kolmogorov-Smirnov sweep `calculate_ks_distance`, which
    appears three times in the repository with the same body.

    Reference definition: sort both samples, merge them stably with ties
    going to the first sample, and take the largest gap |a_k/n1 - b_k/n2|
    over every prefix k of the merge, where a_k and b_k count the elements of
    each sample in that prefix. Ratios are exact reals, not binary floats. */
module KsDistance {
  import opened Sorting

  function Abs(x: real): real
  {
    if x < 0.0 then -x else x
  }

  function Max(x: real, y: real): real
  {
    if x >= y then x else y
  }

  /** `np.sort` on a loss sample. */
  function SortSample(s: seq<real>): (r: seq<real>)
    ensures multiset(r) == multiset(s)
    ensures |r| == |s|
    ensures SortedBy(r, RealLe)
  {
    RealLeTotal();
    SortSorted(s, RealLe);
    Sort(s, RealLe)
  }

  /** Stable merge of two samples, recording for each merged element whether
      it came from the first sample (`true`) or the second (`false`). The
      first sample wins ties. */
  function MergeTags(a: seq<real>, b: seq<real>): (t: seq<bool>)
    ensures |t| == |a| + |b|
    decreases |a| + |b|
  {
    if |a| == 0 && |b| == 0 then []
    else if |b| == 0 || (|a| > 0 && a[0] <= b[0]) then [true] + MergeTags(a[1..], b)
    else [false] + MergeTags(a, b[1..])
  }

  /** Number of elements of the first sample in a merge prefix. */
  function CountFirst(t: seq<bool>): (c: nat)
    ensures c <= |t|
  {
    if |t| == 0 then 0
    else CountFirst(t[..|t| - 1]) + (if t[|t| - 1] then 1 else 0)
  }

  function Fraction(k: nat, n: nat): real
    requires n > 0
  {
    k as real / n as real
  }

  lemma FractionWhole(n: nat)
    requires n > 0
    ensures Fraction(n, n) == 1.0
  {
  }

  /** |ECDF1 - ECDF2| after the first `k` merged elements. */
  function Gap(t: seq<bool>, n1: nat, n2: nat, k: nat): real
    requires n1 > 0 && n2 > 0
    requires k <= |t|
  {
    var a := CountFirst(t[..k]);
    Abs(Fraction(a, n1) - Fraction(k - a, n2))
  }

  /** Largest gap over the prefixes of length 1..k (0 when k = 0). */
  function MaxGap(t: seq<bool>, n1: nat, n2: nat, k: nat): real
    requires n1 > 0 && n2 > 0
    requires k <= |t|
  {
    if k == 0 then 0.0 else Max(MaxGap(t, n1, n2, k - 1), Gap(t, n1, n2, k))
  }

  /** Largest gap over every prefix of the merge of two non-empty samples. */
  function MergeDistance(a: seq<real>, b: seq<real>): real
    requires |a| > 0 && |b| > 0
  {
    var t := MergeTags(a, b);
    MaxGap(t, |a|, |b|, |t|)
  }

  /** The distance the sweep computes, as a reference definition. */
  function KsValue(data1: seq<real>, data2: seq<real>): real
  {
    if |data1| == 0 || |data2| == 0 then 0.0
    else MergeDistance(SortSample(data1), SortSample(data2))
  }

  // ---------------------------------------------------------------------
  // The sweep

  lemma CountFirstStep(t: seq<bool>, k: nat)
    requires k < |t|
    ensures CountFirst(t[..k + 1]) == CountFirst(t[..k]) + (if t[k] then 1 else 0)
  {
    assert t[..k + 1][..k] == t[..k];
  }

  /** Unfolds one step of the merge from cursors (i, j). */
  lemma MergeStep(a: seq<real>, b: seq<real>, i: nat, j: nat)
    requires i <= |a| && j <= |b| && (i < |a| || j < |b|)
    ensures var rest := MergeTags(a[i..], b[j..]);
      if j == |b| || (i < |a| && a[i] <= b[j]) then rest == [true] + MergeTags(a[i + 1..], b[j..])
      else rest == [false] + MergeTags(a[i..], b[j + 1..])
  {
    if i < |a| {
      assert a[i..][1..] == a[i + 1..];
    }
    if j < |b| {
      assert b[j..][1..] == b[j + 1..];
    }
  }

  /** The sweep's state at cursors (i, j) is the merge prefix of length i + j. */
  ghost predicate SweepState(a: seq<real>, b: seq<real>, t: seq<bool>, i: nat, j: nat, d: real)
    requires |a| > 0 && |b| > 0 && |t| == |a| + |b|
  {
    && i <= |a| && j <= |b|
    && MergeTags(a[i..], b[j..]) == t[i + j..]
    && CountFirst(t[..i + j]) == i
    && d == MaxGap(t, |a|, |b|, i + j)
  }

  /** Consuming the next element of the first sample moves the sweep to the
      next merge prefix, and the code's `abs(cdf1 - cdf2)` is that prefix's gap. */
  lemma AdvanceFirst(a: seq<real>, b: seq<real>, t: seq<bool>, i: nat, j: nat, d: real)
    requires |a| > 0 && |b| > 0 && |t| == |a| + |b|
    requires SweepState(a, b, t, i, j, d)
    requires i < |a| && (j == |b| || a[i] <= b[j])
    ensures SweepState(a, b, t, i + 1, j, Max(d, Abs(Fraction(i + 1, |a|) - Fraction(j, |b|))))
  {
    MergeStep(a, b, i, j);
    var k := i + j;
    assert t[k..] == [t[k]] + t[k + 1..];
    assert t[k] && t[k + 1..] == MergeTags(a[i + 1..], b[j..]);
    CountFirstStep(t, k);
    assert CountFirst(t[..k + 1]) == i + 1;
    assert Gap(t, |a|, |b|, k + 1) == Abs(Fraction(i + 1, |a|) - Fraction(j, |b|));
  }

  /** The same for the next element of the second sample. */
  lemma AdvanceSecond(a: seq<real>, b: seq<real>, t: seq<bool>, i: nat, j: nat, d: real)
    requires |a| > 0 && |b| > 0 && |t| == |a| + |b|
    requires SweepState(a, b, t, i, j, d)
    requires j < |b| && (i == |a| || a[i] > b[j])
    ensures SweepState(a, b, t, i, j + 1, Max(d, Abs(Fraction(i, |a|) - Fraction(j + 1, |b|))))
  {
    MergeStep(a, b, i, j);
    var k := i + j;
    assert t[k..] == [t[k]] + t[k + 1..];
    assert !t[k] && t[k + 1..] == MergeTags(a[i..], b[j + 1..]);
    CountFirstStep(t, k);
    assert CountFirst(t[..k + 1]) == i;
    assert Gap(t, |a|, |b|, k + 1) == Abs(Fraction(i, |a|) - Fraction(j + 1, |b|));
  }

  /** `calculate_ks_distance`: sort both samples, return 0.0 if either is
      empty, otherwise sweep. */
  method CalculateKsDistance(data1: seq<real>, data2: seq<real>) returns (d: real)
    ensures |data1| == 0 || |data2| == 0 ==> d == 0.0
    ensures d == KsValue(data1, data2)
  {
    var a := SortSample(data1);
    var b := SortSample(data2);
    var n1 := |a|;
    var n2 := |b|;
    if n1 == 0 || n2 == 0 {
      return 0.0;
    }
    d := Sweep(a, b);
  }

  /** The sweep proper, on non-empty samples: the main two-cursor loop and
      then the two drains. The cursors always sit at a prefix of the stable
      merge. */
  method Sweep(a: seq<real>, b: seq<real>) returns (d: real)
    requires |a| > 0 && |b| > 0
    ensures d == MergeDistance(a, b)
  {
    ghost var t := MergeTags(a, b);
    var i, j;
    i, j, d := SweepBoth(a, b, t);
    i, d := DrainFirst(a, b, t, i, j, d);
    d := DrainSecond(a, b, t, i, j, d);
  }

  /** `while i < n1 and j < n2`: advance the cursor at the smaller element,
      the first one on ties. */
  method SweepBoth(a: seq<real>, b: seq<real>, ghost t: seq<bool>) returns (i: nat, j: nat, d: real)
    requires |a| > 0 && |b| > 0 && t == MergeTags(a, b)
    ensures SweepState(a, b, t, i, j, d)
    ensures i == |a| || j == |b|
  {
    var n1 := |a|;
    var n2 := |b|;
    d := 0.0;
    i := 0;
    j := 0;
    assert a[i..] == a && b[j..] == b;
    while i < n1 && j < n2
      invariant SweepState(a, b, t, i, j, d)
    {
      if a[i] <= b[j] {
        AdvanceFirst(a, b, t, i, j, d);
        var cdf1 := (i + 1) as real / n1 as real;
        var cdf2 := j as real / n2 as real;
        d := Max(d, Abs(cdf1 - cdf2));
        i := i + 1;
      } else {
        AdvanceSecond(a, b, t, i, j, d);
        var cdf1 := i as real / n1 as real;
        var cdf2 := (j + 1) as real / n2 as real;
        d := Max(d, Abs(cdf1 - cdf2));
        j := j + 1;
      }
    }
  }

  /** `while i < n1`: the rest of the first sample against a saturated 1. */
  method DrainFirst(a: seq<real>, b: seq<real>, ghost t: seq<bool>, i0: nat, j: nat, d0: real)
    returns (i: nat, d: real)
    requires |a| > 0 && |b| > 0 && |t| == |a| + |b|
    requires SweepState(a, b, t, i0, j, d0)
    requires i0 == |a| || j == |b|
    ensures i == |a| && SweepState(a, b, t, i, j, d)
  {
    var n1 := |a|;
    var n2 := |b|;
    i, d := i0, d0;
    while i < n1
      invariant SweepState(a, b, t, i, j, d)
      invariant i < n1 ==> j == n2
    {
      AdvanceFirst(a, b, t, i, j, d);
      FractionWhole(n2);
      var cdf1 := (i + 1) as real / n1 as real;
      var cdf2 := 1.0;
      d := Max(d, Abs(cdf1 - cdf2));
      i := i + 1;
    }
  }

  /** `while j < n2`: the rest of the second sample against a saturated 1. */
  method DrainSecond(a: seq<real>, b: seq<real>, ghost t: seq<bool>, i: nat, j0: nat, d0: real)
    returns (d: real)
    requires |a| > 0 && |b| > 0 && |t| == |a| + |b|
    requires SweepState(a, b, t, i, j0, d0)
    requires i == |a|
    ensures d == MaxGap(t, |a|, |b|, |t|)
  {
    var n1 := |a|;
    var n2 := |b|;
    var j := j0;
    d := d0;
    while j < n2
      invariant SweepState(a, b, t, i, j, d)
    {
      AdvanceSecond(a, b, t, i, j, d);
      FractionWhole(n1);
      var cdf1 := 1.0;
      var cdf2 := (j + 1) as real / n2 as real;
      d := Max(d, Abs(cdf1 - cdf2));
      j := j + 1;
    }
  }

  // ---------------------------------------------------------------------
  // Properties of the distance

  lemma CountFirstCons(x: bool, s: seq<bool>)
    ensures CountFirst([x] + s) == (if x then 1 else 0) + CountFirst(s)
    decreases |s|
  {
    if |s| > 0 {
      var u := [x] + s;
      assert u[..|u| - 1] == [x] + s[..|s| - 1];
      CountFirstCons(x, s[..|s| - 1]);
    }
  }

  /** The merge holds every element of the first sample. */
  lemma {:induction false} MergeCountsFirst(a: seq<real>, b: seq<real>)
    ensures CountFirst(MergeTags(a, b)) == |a|
    decreases |a| + |b|
  {
    if |a| == 0 && |b| == 0 {
    } else if |b| == 0 || (|a| > 0 && a[0] <= b[0]) {
      MergeCountsFirst(a[1..], b);
      CountFirstCons(true, MergeTags(a[1..], b));
    } else {
      MergeCountsFirst(a, b[1..]);
      CountFirstCons(false, MergeTags(a, b[1..]));
    }
  }

  /** Longer prefixes hold at least as many elements of each sample. */
  lemma {:induction false} CountFirstMonotone(t: seq<bool>, k: nat, m: nat)
    requires k <= m <= |t|
    ensures CountFirst(t[..k]) <= CountFirst(t[..m])
    ensures k - CountFirst(t[..k]) <= m - CountFirst(t[..m])
    decreases m - k
  {
    if k < m {
      CountFirstMonotone(t, k, m - 1);
      CountFirstStep(t, m - 1);
    } else {
      assert t[..k] == t[..m];
    }
  }

  lemma FractionInUnit(k: nat, n: nat)
    requires n > 0 && k <= n
    ensures 0.0 <= Fraction(k, n) <= 1.0
  {
    assert Fraction(k, n) * n as real == k as real;
  }

  lemma FractionPositive(n: nat)
    requires n > 0
    ensures Fraction(0, n) == 0.0 && Fraction(1, n) > 0.0
  {
  }

  /** Every gap along a merge of samples of sizes n1 and n2 lies in [0, 1]. */
  lemma GapInUnit(t: seq<bool>, n1: nat, n2: nat, k: nat)
    requires n1 > 0 && n2 > 0 && |t| == n1 + n2 && CountFirst(t) == n1
    requires k <= |t|
    ensures 0.0 <= Gap(t, n1, n2, k) <= 1.0
  {
    assert t[..|t|] == t;
    CountFirstMonotone(t, k, |t|);
    var a := CountFirst(t[..k]);
    FractionInUnit(a, n1);
    FractionInUnit(k - a, n2);
  }

  /** `MaxGap` is the maximum of the gaps over prefixes 1..k, attained at one of them. */
  lemma {:induction false} MaxGapIsMax(t: seq<bool>, n1: nat, n2: nat, k: nat)
    requires n1 > 0 && n2 > 0
    requires k <= |t|
    ensures forall m :: 1 <= m <= k ==> Gap(t, n1, n2, m) <= MaxGap(t, n1, n2, k)
    ensures k >= 1 ==> exists m :: 1 <= m <= k && Gap(t, n1, n2, m) == MaxGap(t, n1, n2, k)
  {
    if k > 0 {
      MaxGapIsMax(t, n1, n2, k - 1);
      if k > 1 && MaxGap(t, n1, n2, k - 1) >= Gap(t, n1, n2, k) {
        var m :| 1 <= m <= k - 1 && Gap(t, n1, n2, m) == MaxGap(t, n1, n2, k - 1);
        assert Gap(t, n1, n2, m) == MaxGap(t, n1, n2, k);
      } else {
        if k == 1 {
          assert Gap(t, n1, n2, 1) >= 0.0;
        }
        assert Gap(t, n1, n2, k) == MaxGap(t, n1, n2, k);
      }
    }
  }

  /** On non-empty samples the distance is the largest ECDF gap over all
      prefixes of the stable merge of the sorted samples (ties to the first). */
  lemma KsIsPrefixMax(data1: seq<real>, data2: seq<real>)
    requires |data1| > 0 && |data2| > 0
    ensures var t := MergeTags(SortSample(data1), SortSample(data2));
      && (forall k :: 1 <= k <= |t| ==> Gap(t, |data1|, |data2|, k) <= KsValue(data1, data2))
      && (exists k :: 1 <= k <= |t| && Gap(t, |data1|, |data2|, k) == KsValue(data1, data2))
  {
    var t := MergeTags(SortSample(data1), SortSample(data2));
    MaxGapIsMax(t, |data1|, |data2|, |t|);
  }

  /** The distance lies in [0, 1]. */
  lemma KsInUnit(data1: seq<real>, data2: seq<real>)
    ensures 0.0 <= KsValue(data1, data2) <= 1.0
  {
    if |data1| > 0 && |data2| > 0 {
      var a, b := SortSample(data1), SortSample(data2);
      var t := MergeTags(a, b);
      MergeCountsFirst(a, b);
      KsIsPrefixMax(data1, data2);
      var k :| 1 <= k <= |t| && Gap(t, |data1|, |data2|, k) == KsValue(data1, data2);
      GapInUnit(t, |data1|, |data2|, k);
    }
  }

  /** On non-empty samples the first merge step already separates the ECDFs
      by 1/n1 or 1/n2, so the distance is never 0. */
  lemma KsPositive(data1: seq<real>, data2: seq<real>)
    requires |data1| > 0 && |data2| > 0
    ensures KsValue(data1, data2) >= Fraction(1, |data1|) || KsValue(data1, data2) >= Fraction(1, |data2|)
    ensures KsValue(data1, data2) > 0.0
  {
    var n1, n2 := |data1|, |data2|;
    var t := MergeTags(SortSample(data1), SortSample(data2));
    MaxGapIsMax(t, n1, n2, |t|);
    assert Gap(t, n1, n2, 1) <= KsValue(data1, data2);
    assert t[..1] == [t[0]];
    assert CountFirst(t[..1]) == (if t[0] then 1 else 0) by {
      assert t[..1][..0] == [];
    }
    FractionPositive(n1);
    FractionPositive(n2);
    if t[0] {
      assert Gap(t, n1, n2, 1) == Abs(Fraction(1, n1) - Fraction(0, n2));
    } else {
      assert Gap(t, n1, n2, 1) == Abs(Fraction(0, n1) - Fraction(1, n2));
    }
  }

  /** Permuting either sample does not change the distance: both are sorted first. */
  lemma KsOrderInsensitive(data1: seq<real>, data1': seq<real>, data2: seq<real>, data2': seq<real>)
    requires multiset(data1) == multiset(data1')
    requires multiset(data2) == multiset(data2')
    ensures KsValue(data1, data2) == KsValue(data1', data2')
  {
    RealLeTotal();
    SortPermutationInvariant(data1, data1', RealLe);
    SortPermutationInvariant(data2, data2', RealLe);
    assert |data1| == |multiset(data1)| == |data1'|;
    assert |data2| == |multiset(data2)| == |data2'|;
  }

  lemma {:induction false} CountFirstAll(s: seq<bool>, x: bool)
    requires forall k :: 0 <= k < |s| ==> s[k] == x
    ensures CountFirst(s) == (if x then |s| else 0)
  {
    if |s| > 0 {
      CountFirstAll(s[..|s| - 1], x);
    }
  }

  /** When every element of `a` is <= every element of `b`, the merge takes all of `a` first. */
  lemma {:induction false} MergeFirstBlock(a: seq<real>, b: seq<real>)
    requires forall i, j :: 0 <= i < |a| && 0 <= j < |b| ==> a[i] <= b[j]
    ensures forall k :: 0 <= k < |a| ==> MergeTags(a, b)[k]
    decreases |a|
  {
    if |a| > 0 {
      MergeFirstBlock(a[1..], b);
    }
  }

  /** When every element of `b` is < every element of `a`, the merge takes all of `b` first. */
  lemma {:induction false} MergeSecondBlock(a: seq<real>, b: seq<real>)
    requires forall i, j :: 0 <= i < |a| && 0 <= j < |b| ==> b[j] < a[i]
    ensures forall k :: 0 <= k < |b| ==> !MergeTags(a, b)[k]
    decreases |b|
  {
    if |b| > 0 {
      MergeSecondBlock(a, b[1..]);
    }
  }

  lemma SortedMembers(data: seq<real>)
    ensures forall i :: 0 <= i < |SortSample(data)| ==> SortSample(data)[i] in data
  {
    var a := SortSample(data);
    forall i | 0 <= i < |a|
      ensures a[i] in data
    {
      assert a[i] in multiset(a);
    }
  }

  /** When max(A) <= min(B) the distance is 1 (ties go to the first sample). */
  lemma KsSeparatedBelow(data1: seq<real>, data2: seq<real>)
    requires |data1| > 0 && |data2| > 0
    requires forall x, y :: x in data1 && y in data2 ==> x <= y
    ensures KsValue(data1, data2) == 1.0
  {
    var n1, n2 := |data1|, |data2|;
    var a, b := SortSample(data1), SortSample(data2);
    var t := MergeTags(a, b);
    SortedMembers(data1);
    SortedMembers(data2);
    MergeFirstBlock(a, b);
    CountFirstAll(t[..n1], true);
    FractionPositive(n2);
    FractionWhole(n1);
    assert Gap(t, n1, n2, n1) == 1.0;
    MaxGapIsMax(t, n1, n2, |t|);
    KsInUnit(data1, data2);
  }

  /** When max(B) < min(A) the distance is 1. */
  lemma KsSeparatedAbove(data1: seq<real>, data2: seq<real>)
    requires |data1| > 0 && |data2| > 0
    requires forall x, y :: x in data1 && y in data2 ==> y < x
    ensures KsValue(data1, data2) == 1.0
  {
    var n1, n2 := |data1|, |data2|;
    var a, b := SortSample(data1), SortSample(data2);
    var t := MergeTags(a, b);
    SortedMembers(data1);
    SortedMembers(data2);
    MergeSecondBlock(a, b);
    CountFirstAll(t[..n2], false);
    FractionPositive(n1);
    FractionWhole(n2);
    assert Gap(t, n1, n2, n2) == 1.0;
    MaxGapIsMax(t, n1, n2, |t|);
    KsInUnit(data1, data2);
  }
}

=== FILE: ks_examples.dfy ===
/** Concrete values of the sweep. They show what the code computes where it
    departs from the textbook two-sample statistic: the distance is not
    symmetric, a sample is not at distance 0 from itself, and several expected
    values written in the repository's tests/test_0.py are not what the code
    returns. */
module KsExamples {
  import opened Sorting
  import opened KsDistance

  /** On already sorted samples `np.sort` changes nothing. */
  lemma KsOfSorted(a: seq<real>, b: seq<real>)
    requires |a| > 0 && |b| > 0
    requires SortedBy(a, RealLe) && SortedBy(b, RealLe)
    ensures KsValue(a, b) == MergeDistance(a, b)
  {
    SortSampleOfSorted(a);
    SortSampleOfSorted(b);
  }

  lemma SortSampleOfSorted(s: seq<real>)
    requires SortedBy(s, RealLe)
    ensures SortSample(s) == s
  {
    RealLeTotal();
    SortOfSorted(s, RealLe);
  }

  /** Gaps along the merge of [1, 2] with [1]: 1/2, 1/2, 0. */
  lemma MaxGapOneTwoVsOne(t: seq<bool>)
    requires t == [true, false, true]
    ensures MaxGap(t, 2, 1, 3) == 0.5
  {
    assert t[..0] == [];
    CountFirstStep(t, 0);
    CountFirstStep(t, 1);
    CountFirstStep(t, 2);
    assert Gap(t, 2, 1, 1) == 0.5;
    assert Gap(t, 2, 1, 2) == 0.5;
    assert Gap(t, 2, 1, 3) == 0.0;
    assert MaxGap(t, 2, 1, 1) == 0.5;
    assert MaxGap(t, 2, 1, 2) == 0.5;
  }

  /** Gaps along an alternating merge of two 3-element samples: 1/3, 0, 1/3, 0, 1/3, 0. */
  lemma MaxGapAlternating(t: seq<bool>)
    requires t == [true, false, true, false, true, false]
    ensures MaxGap(t, 3, 3, 6) == 1.0 / 3.0
  {
    assert t[..0] == [];
    CountFirstStep(t, 0);
    CountFirstStep(t, 1);
    CountFirstStep(t, 2);
    CountFirstStep(t, 3);
    CountFirstStep(t, 4);
    CountFirstStep(t, 5);
    assert Gap(t, 3, 3, 1) == 1.0 / 3.0;
    assert Gap(t, 3, 3, 2) == 0.0;
    assert Gap(t, 3, 3, 3) == 1.0 / 3.0;
    assert Gap(t, 3, 3, 4) == 0.0;
    assert Gap(t, 3, 3, 5) == 1.0 / 3.0;
    assert Gap(t, 3, 3, 6) == 0.0;
    assert MaxGap(t, 3, 3, 1) == 1.0 / 3.0;
    assert MaxGap(t, 3, 3, 2) == 1.0 / 3.0;
    assert MaxGap(t, 3, 3, 3) == 1.0 / 3.0;
    assert MaxGap(t, 3, 3, 4) == 1.0 / 3.0;
    assert MaxGap(t, 3, 3, 5) == 1.0 / 3.0;
  }

  /** [1] vs [1, 2] is 1.0, but [1, 2] vs [1] is 0.5. */
  lemma KsNotSymmetric()
    ensures KsValue([1.0], [1.0, 2.0]) == 1.0
    ensures KsValue([1.0, 2.0], [1.0]) == 0.5
  {
    KsSeparatedBelow([1.0], [1.0, 2.0]);
    var a, b := [1.0, 2.0], [1.0];
    KsOfSorted(a, b);
    assert a[1..] == [2.0];
    assert MergeTags([2.0], []) == [true];
    assert MergeTags([2.0], [1.0]) == [false, true];
    MaxGapOneTwoVsOne(MergeTags(a, b));
  }

  lemma SortedOneTwoThree()
    ensures SortedBy([1.0, 2.0, 3.0], RealLe)
    ensures SortedBy([1.0, 2.0, 4.0], RealLe)
  {
  }

  lemma MergeOneTwoThree()
    ensures MergeTags([1.0, 2.0, 3.0], [1.0, 2.0, 3.0]) == [true, false, true, false, true, false]
  {
    var a := [1.0, 2.0, 3.0];
    assert a[1..] == [2.0, 3.0];
    assert [2.0, 3.0][1..] == [3.0];
    assert [3.0][1..] == [];
    assert MergeTags([], [3.0]) == [false];
    assert MergeTags([3.0], [3.0]) == [true, false];
    assert MergeTags([3.0], [2.0, 3.0]) == [false, true, false];
    assert MergeTags([2.0, 3.0], [2.0, 3.0]) == [true, false, true, false];
    assert MergeTags([2.0, 3.0], a) == [false, true, false, true, false];
  }

  lemma MergeOneTwoFour()
    ensures MergeTags([1.0, 2.0, 3.0], [1.0, 2.0, 4.0]) == [true, false, true, false, true, false]
  {
    var a, b := [1.0, 2.0, 3.0], [1.0, 2.0, 4.0];
    assert a[1..] == [2.0, 3.0] && [2.0, 3.0][1..] == [3.0] && [3.0][1..] == [];
    assert b[1..] == [2.0, 4.0] && [2.0, 4.0][1..] == [4.0] && [4.0][1..] == [];
    assert MergeTags([], [4.0]) == [false];
    assert MergeTags([3.0], [4.0]) == [true, false];
    assert MergeTags([3.0], [2.0, 4.0]) == [false, true, false];
    assert MergeTags([2.0, 3.0], [2.0, 4.0]) == [true, false, true, false];
    assert MergeTags([2.0, 3.0], b) == [false, true, false, true, false];
  }

  /** The distance of [1, 2, 3] from itself is 1/3, not 0. */
  lemma KsSelfDistance()
    ensures KsValue([1.0, 2.0, 3.0], [1.0, 2.0, 3.0]) == 1.0 / 3.0
  {
    SortedOneTwoThree();
    KsOfSorted([1.0, 2.0, 3.0], [1.0, 2.0, 3.0]);
    MergeOneTwoThree();
    MaxGapAlternating(MergeTags([1.0, 2.0, 3.0], [1.0, 2.0, 3.0]));
  }

  /** [1, 2, 3] vs [1, 2, 4] is 1/3. */
  lemma KsOneTwoThreeVsOneTwoFour()
    ensures KsValue([1.0, 2.0, 3.0], [1.0, 2.0, 4.0]) == 1.0 / 3.0
  {
    SortedOneTwoThree();
    KsOfSorted([1.0, 2.0, 3.0], [1.0, 2.0, 4.0]);
    MergeOneTwoFour();
    MaxGapAlternating(MergeTags([1.0, 2.0, 3.0], [1.0, 2.0, 4.0]));
  }

  /** Case 1 of tests/test_0.py. */
  lemma KsSeparatedThree()
    ensures KsValue([1.0, 2.0, 3.0], [4.0, 5.0, 6.0]) == 1.0
  {
    KsSeparatedBelow([1.0, 2.0, 3.0], [4.0, 5.0, 6.0]);
  }

  /** Case 4 of tests/test_0.py. */
  lemma KsSeparatedFive()
    ensures KsValue([1.0, 2.0, 3.0, 4.0, 5.0], [6.0, 7.0, 8.0, 9.0, 10.0]) == 1.0
  {
    var a, b := [1.0, 2.0, 3.0, 4.0, 5.0], [6.0, 7.0, 8.0, 9.0, 10.0];
    assert forall x :: x in a ==> x <= 5.0;
    assert forall y :: y in b ==> 6.0 <= y;
    KsSeparatedBelow(a, b);
  }

  /** Case 5 of tests/test_0.py: five 1s against five 2s. */
  lemma KsSeparatedConstant()
    ensures KsValue([1.0, 1.0, 1.0, 1.0, 1.0], [2.0, 2.0, 2.0, 2.0, 2.0]) == 1.0
  {
    var a, b := [1.0, 1.0, 1.0, 1.0, 1.0], [2.0, 2.0, 2.0, 2.0, 2.0];
    assert forall x :: x in a ==> x == 1.0;
    assert forall y :: y in b ==> y == 2.0;
    KsSeparatedBelow(a, b);
  }

  /** The five cases of tests/test_0.py as the code evaluates them: 1.0, 1/3,
      1/3, 1.0 and 1.0 (the test file expects 0.0, 0.0, 1/6, 0.0 and 1.0). */
  lemma KsTestCases()
    ensures KsValue([1.0, 2.0, 3.0], [4.0, 5.0, 6.0]) == 1.0
    ensures KsValue([1.0, 2.0, 3.0], [1.0, 2.0, 3.0]) == 1.0 / 3.0
    ensures KsValue([1.0, 2.0, 3.0], [1.0, 2.0, 4.0]) == 1.0 / 3.0
    ensures KsValue([1.0, 2.0, 3.0, 4.0, 5.0], [6.0, 7.0, 8.0, 9.0, 10.0]) == 1.0
    ensures KsValue([1.0, 1.0, 1.0, 1.0, 1.0], [2.0, 2.0, 2.0, 2.0, 2.0]) == 1.0
  {
    KsSeparatedThree();
    KsSeparatedFive();
    KsSeparatedConstant();
    KsSelfDistance();
    KsOneTwoThreeVsOneTwoFour();
  }
}

=== FILE: loss_data.dfy ===
/** The rows the application passes between its stages: one operational loss
    event per row, tagged with the raw Unit of Measure (UoM) it belongs to. */
module LossData {
  import opened Selection

  /** One row of the synthetic table (columns `uom_id`, `loss_amount`,
      `loss_date`, `event_type`, `business_line`). The date is kept as its
      day offset from 2023-01-01. */
  datatype Event = Event(uomId: int, lossAmount: real, lossDay: int, eventType: string, businessLine: string)

  const EventTypes: seq<string> := ["Fraud", "Error", "System Failure"]

  const BusinessLines: seq<string> := ["Retail", "Investment", "Corporate"]

  /** The `uom_id` column. */
  function UomIds(events: seq<Event>): seq<int>
  {
    seq(|events|, k requires 0 <= k < |events| => events[k].uomId)
  }

  /** The `loss_amount` column. */
  function LossAmounts(events: seq<Event>): seq<real>
  {
    seq(|events|, k requires 0 <= k < |events| => events[k].lossAmount)
  }

  /** `data[data['uom_id'] == uid]['loss_amount'].values`. */
  function LossesOf(events: seq<Event>, uid: int): seq<real>
  {
    Where(UomIds(events), LossAmounts(events), uid)
  }

  /** The losses of `uid` are those of the rows carrying `uid`, one per row
      and in row order. */
  lemma LossesOfRows(events: seq<Event>, uid: int)
    ensures |LossesOf(events, uid)| == |Positions(UomIds(events), uid)|
    ensures forall i :: 0 <= i < |LossesOf(events, uid)| ==>
      var k := Positions(UomIds(events), uid)[i];
      k < |events| && events[k].uomId == uid && LossesOf(events, uid)[i] == events[k].lossAmount
  {
    WhereAtPositions(UomIds(events), LossAmounts(events), uid);
  }
}

=== FILE: matrix_examples.dfy ===
/** A concrete distance matrix: the diagonal entry the sweep gives a UoM
    against itself. */
module MatrixExamples {
  import opened LossData
  import opened Selection
  import opened DistanceMatrix
  import opened KsExamples

  /** The `Where` selection of a table whose rows all have key 7. */
  lemma WhereSingleKey()
    ensures Where([7, 7, 7], [1.0, 2.0, 3.0], 7) == [1.0, 2.0, 3.0]
  {
    var ids, losses := [7, 7, 7], [1.0, 2.0, 3.0];
    assert ids[..0] == [] && losses[..0] == [];
    WhereStep(ids, losses, 7, 0);
    WhereStep(ids, losses, 7, 1);
    WhereStep(ids, losses, 7, 2);
    assert ids[..3] == ids && losses[..3] == losses;
  }

  /** A table holding one UoM with losses 1, 2, 3: the single diagonal entry
      is 1/3, not 0. */
  lemma DiagonalNotZero()
    ensures var data := [Event(7, 1.0, 0, "Fraud", "Retail"), Event(7, 2.0, 0, "Error", "Retail"),
                         Event(7, 3.0, 0, "Fraud", "Retail")];
      PairDistance(data, [7], 0, 0) == 1.0 / 3.0
  {
    var data := [Event(7, 1.0, 0, "Fraud", "Retail"), Event(7, 2.0, 0, "Error", "Retail"),
                 Event(7, 3.0, 0, "Fraud", "Retail")];
    assert UomIds(data) == [7, 7, 7] && LossAmounts(data) == [1.0, 2.0, 3.0];
    WhereSingleKey();
    KsSelfDistance();
  }
}

=== FILE: pipeline.dfy ===
/** The three stages chained by the caller: a generated table is regrouped by
    business rule and then assessed. The application passes the tables from
    page to page through session state; here they are passed explicitly. */
module Pipeline {
  import opened Wrappers
  import opened LossData
  import opened UomGrouping
  import opened Homogeneity

  /** The DataFrame holding a loss table's columns. */
  function AsDataFrame(t: Table): (data: Input)
    ensures WellFormed(data)
  {
    var n := |t.events|;
    var base := map[
      "uom_id" := IntColumn(UomIds(t.events)),
      LossColumn := RealColumn(seq(n, k requires 0 <= k < n => t.events[k].lossAmount)),
      "loss_date" := IntColumn(seq(n, k requires 0 <= k < n => t.events[k].lossDay)),
      "event_type" := TextColumn(seq(n, k requires 0 <= k < n => t.events[k].eventType)),
      "business_line" := TextColumn(seq(n, k requires 0 <= k < n => t.events[k].businessLine))];
    if t.groupedUomId.Some? && |t.groupedUomId.value| == n then
      DataFrame(base[GroupColumn := IntColumn(t.groupedUomId.value)], n)
    else
      DataFrame(base, n)
  }

  /** Assessing a business-grouped table yields one entry per distinct grouped
      id, each from that group's own losses. */
  lemma AssessGroupedTable(t: Table, selected: seq<string>,
                           kstest: (seq<real>, real, real) -> real, std: seq<real> -> real)
    requires |t.events| > 0
    ensures var grouped := GroupByBusinessKnowledge(t, selected);
      var r := AssessHomogeneity(AsDataFrame(grouped), kstest, std);
      && r.Success?
      && r.value.Keys == set id | id in grouped.groupedUomId.value :: IntCell(id)
  {
    var grouped := GroupByBusinessKnowledge(t, selected);
    var data := AsDataFrame(grouped);
    assert Assessable(data);
    var r := AssessHomogeneity(data, kstest, std);
    var ids := grouped.groupedUomId.value;
    assert GroupKeys(data) == seq(|ids|, k requires 0 <= k < |ids| => IntCell(ids[k]));
    forall g
      ensures g in r.value <==> g in set id | id in ids :: IntCell(id)
    {
      if g in GroupKeys(data) {
        var k :| 0 <= k < |ids| && GroupKeys(data)[k] == g;
        assert ids[k] in ids;
      }
      if g in set id | id in ids :: IntCell(id) {
        var id :| id in ids && g == IntCell(id);
        var k :| 0 <= k < |ids| && ids[k] == id;
        assert GroupKeys(data)[k] == g;
      }
    }
  }

  /** A non-empty table that was never grouped has no `grouped_uom_id` column
      and is rejected with the KeyError naming it. */
  lemma AssessUngroupedTable(t: Table, kstest: (seq<real>, real, real) -> real, std: seq<real> -> real)
    requires |t.events| > 0 && t.groupedUomId.None?
    ensures AssessHomogeneity(AsDataFrame(t), kstest, std) == Failure(MissingGroupColumn)
  {
    var data := AsDataFrame(t);
    assert data.columns.Keys == {"uom_id", LossColumn, "loss_date", "event_type", "business_line"};
    assert GroupColumn !in data.columns;
    assert !IsEmpty(data);
  }
}

=== FILE: selection.dfy ===
/** Selecting the values of one column by the value of another, in row order:
    pandas' `df[df[key] == g][value]`, and the value list `groupby(key)[value]`
    keeps for group `g`. */
module Selection {

  /** The values of the rows whose key is `g`, in row order. */
  function Where<K(==), V>(keys: seq<K>, values: seq<V>, g: K): (vs: seq<V>)
    requires |keys| == |values|
    ensures |vs| > 0 <==> g in keys
  {
    if |keys| == 0 then []
    else
      var n := |keys| - 1;
      Where(keys[..n], values[..n], g) + (if keys[n] == g then [values[n]] else [])
  }

  /** The rows whose key is `g`: ascending, each carrying `g`, and missing none. */
  function Positions<K(==)>(keys: seq<K>, g: K): (p: seq<nat>)
    ensures forall i :: 0 <= i < |p| ==> p[i] < |keys| && keys[p[i]] == g
    ensures forall i, j :: 0 <= i < j < |p| ==> p[i] < p[j]
    ensures forall k :: 0 <= k < |keys| && keys[k] == g ==> k in p
  {
    if |keys| == 0 then []
    else
      var n := |keys| - 1;
      var earlier := Positions(keys[..n], g);
      assert forall k :: 0 <= k < n ==> keys[..n][k] == keys[k];
      earlier + (if keys[n] == g then [n] else [])
  }

  /** `Where` holds exactly the values at `Positions`, in that order. */
  lemma {:induction false} WhereAtPositions<K, V>(keys: seq<K>, values: seq<V>, g: K)
    requires |keys| == |values|
    ensures |Where(keys, values, g)| == |Positions(keys, g)|
    ensures forall i :: 0 <= i < |Where(keys, values, g)| ==>
      Where(keys, values, g)[i] == values[Positions(keys, g)[i]]
  {
    if |keys| > 0 {
      var n := |keys| - 1;
      WhereAtPositions(keys[..n], values[..n], g);
    }
  }

  /** A value is selected iff some row with key `g` carries it. */
  lemma WhereMembers<K, V>(keys: seq<K>, values: seq<V>, g: K, v: V)
    requires |keys| == |values|
    ensures v in Where(keys, values, g) <==> exists k :: 0 <= k < |keys| && keys[k] == g && values[k] == v
  {
    WhereAtPositions(keys, values, g);
    var vs, p := Where(keys, values, g), Positions(keys, g);
    if v in vs {
      var i :| 0 <= i < |vs| && vs[i] == v;
      assert keys[p[i]] == g && values[p[i]] == v;
    }
    if exists k :: 0 <= k < |keys| && keys[k] == g && values[k] == v {
      var k :| 0 <= k < |keys| && keys[k] == g && values[k] == v;
      var i :| 0 <= i < |p| && p[i] == k;
      assert vs[i] == v;
    }
  }

  /** One value is selected per row carrying `g`. */
  lemma {:induction false} WhereCount<K, V>(keys: seq<K>, values: seq<V>, g: K)
    requires |keys| == |values|
    ensures |Where(keys, values, g)| == multiset(keys)[g]
  {
    if |keys| > 0 {
      var n := |keys| - 1;
      WhereCount(keys[..n], values[..n], g);
      assert keys == keys[..n] + [keys[n]];
    }
  }

  /** Extending both columns by one row extends the selection by that row's value
      when its key is `g`. */
  lemma WhereStep<K, V>(keys: seq<K>, values: seq<V>, g: K, m: nat)
    requires |keys| == |values| && m < |keys|
    ensures Where(keys[..m + 1], values[..m + 1], g)
         == Where(keys[..m], values[..m], g) + (if keys[m] == g then [values[m]] else [])
  {
    assert keys[..m + 1][..m] == keys[..m];
    assert values[..m + 1][..m] == values[..m];
  }
}

=== FILE: sorting.dfy ===
/** Sorting as the source uses it: `np.sort` on loss samples, `sorted` on the
    list of selected event types, and `sorted(unique(...))` on UoM ids.
    The sort is an insertion sort over an arbitrary comparison; under a total
    order its output is the unique sorted permutation of its input, which is
    what makes the callers insensitive to the order of their inputs. */
module Sorting {

  /** `le` is a total order: total, antisymmetric and transitive. */
  ghost predicate TotalOrder<T(!new)>(le: (T, T) -> bool)
  {
    && (forall x, y :: le(x, y) || le(y, x))
    && (forall x, y :: le(x, y) && le(y, x) ==> x == y)
    && (forall x, y, z :: le(x, y) && le(y, z) ==> le(x, z))
  }

  /** Every earlier element is `le` every later one. */
  ghost predicate SortedBy<T>(s: seq<T>, le: (T, T) -> bool)
  {
    forall i, j :: 0 <= i < j < |s| ==> le(s[i], s[j])
  }

  /** Inserts `x` before the first element it is `le` to. */
  function Insert<T>(x: T, s: seq<T>, le: (T, T) -> bool): (r: seq<T>)
    ensures multiset(r) == multiset(s) + multiset{x}
    ensures |r| == |s| + 1
  {
    if |s| == 0 then [x]
    else if le(x, s[0]) then [x] + s
    else
      assert s == [s[0]] + s[1..];
      [s[0]] + Insert(x, s[1..], le)
  }

  lemma {:induction false} InsertSorted<T(!new)>(x: T, s: seq<T>, le: (T, T) -> bool)
    requires TotalOrder(le)
    requires SortedBy(s, le)
    ensures SortedBy(Insert(x, s, le), le)
  {
    if |s| == 0 || le(x, s[0]) {
    } else {
      var tail := Insert(x, s[1..], le);
      InsertSorted(x, s[1..], le);
      assert le(s[0], x);
      forall k | 0 <= k < |tail|
        ensures le(s[0], tail[k])
      {
        assert tail[k] in multiset(tail);
        assert tail[k] == x || tail[k] in multiset(s[1..]);
        if tail[k] != x {
          var m :| 0 <= m < |s[1..]| && s[1..][m] == tail[k];
          assert s[m + 1] == tail[k];
        }
      }
    }
  }

  /** Insertion sort: the permutation of `s` that is sorted by `le`. */
  function Sort<T>(s: seq<T>, le: (T, T) -> bool): (r: seq<T>)
    ensures multiset(r) == multiset(s)
    ensures |r| == |s|
  {
    if |s| == 0 then []
    else
      assert s == [s[0]] + s[1..];
      Insert(s[0], Sort(s[1..], le), le)
  }

  lemma {:induction false} SortSorted<T(!new)>(s: seq<T>, le: (T, T) -> bool)
    requires TotalOrder(le)
    ensures SortedBy(Sort(s, le), le)
  {
    if |s| > 0 {
      SortSorted(s[1..], le);
      InsertSorted(s[0], Sort(s[1..], le), le);
    }
  }

  /** The head of a sorted sequence is `le` every element of it. */
  lemma HeadIsLeast<T>(s: seq<T>, x: T, le: (T, T) -> bool)
    requires forall y :: le(y, y)
    requires SortedBy(s, le)
    requires x in multiset(s)
    ensures le(s[0], x)
  {
    var p :| 0 <= p < |s| && s[p] == x;
    if p > 0 {
      assert le(s[0], s[p]);
    } else {
      assert le(s[0], s[0]);
    }
  }

  lemma TotalOrderReflexive<T(!new)>(le: (T, T) -> bool)
    requires TotalOrder(le)
    ensures forall y :: le(y, y)
  {
    forall y
      ensures le(y, y)
    {
      assert le(y, y) || le(y, y);
    }
  }

  lemma SameHead<T(!new)>(a: seq<T>, b: seq<T>, le: (T, T) -> bool)
    requires TotalOrder(le)
    requires SortedBy(a, le) && SortedBy(b, le)
    requires multiset(a) == multiset(b)
    requires |a| > 0
    ensures |b| > 0 && a[0] == b[0]
  {
    assert |b| == |multiset(b)| == |a|;
    TotalOrderReflexive(le);
    assert a[0] in multiset(a);
    assert b[0] in multiset(b);
    HeadIsLeast(b, a[0], le);
    HeadIsLeast(a, b[0], le);
  }

  /** Under a total order there is only one sorted arrangement of a multiset. */
  lemma {:induction false} SortedUnique<T(!new)>(a: seq<T>, b: seq<T>, le: (T, T) -> bool)
    requires TotalOrder(le)
    requires SortedBy(a, le) && SortedBy(b, le)
    requires multiset(a) == multiset(b)
    ensures a == b
  {
    if |a| == 0 {
      assert |b| == |multiset(b)| == 0;
    } else {
      SameHead(a, b, le);
      assert a == [a[0]] + a[1..];
      assert b == [b[0]] + b[1..];
      assert multiset(a[1..]) == multiset(a) - multiset{a[0]};
      assert multiset(b[1..]) == multiset(b) - multiset{b[0]};
      SortedUnique(a[1..], b[1..], le);
    }
  }

  /** Sorting is insensitive to the order of its input. */
  lemma SortPermutationInvariant<T(!new)>(s: seq<T>, t: seq<T>, le: (T, T) -> bool)
    requires TotalOrder(le)
    requires multiset(s) == multiset(t)
    ensures Sort(s, le) == Sort(t, le)
  {
    SortSorted(s, le);
    SortSorted(t, le);
    SortedUnique(Sort(s, le), Sort(t, le), le);
  }

  /** An input that is already sorted comes back unchanged. */
  lemma SortOfSorted<T(!new)>(s: seq<T>, le: (T, T) -> bool)
    requires TotalOrder(le)
    requires SortedBy(s, le)
    ensures Sort(s, le) == s
  {
    SortSorted(s, le);
    SortedUnique(Sort(s, le), s, le);
  }

  // ---------------------------------------------------------------------
  // Orders used by the source

  /** `<=` on loss amounts (`np.sort`). */
  function RealLe(x: real, y: real): bool
  {
    x <= y
  }

  lemma RealLeTotal()
    ensures TotalOrder(RealLe)
  {
  }

  /** Python's string order: code point by code point, a proper prefix first. */
  function StrLe(a: string, b: string): bool
  {
    if |a| == 0 then true
    else if |b| == 0 then false
    else if a[0] != b[0] then a[0] < b[0]
    else StrLe(a[1..], b[1..])
  }

  lemma {:induction false} StrLeTotal2(a: string, b: string)
    ensures StrLe(a, b) || StrLe(b, a)
  {
    if |a| > 0 && |b| > 0 && a[0] == b[0] {
      StrLeTotal2(a[1..], b[1..]);
    }
  }

  lemma {:induction false} StrLeAntisymmetric(a: string, b: string)
    requires StrLe(a, b) && StrLe(b, a)
    ensures a == b
  {
    if |a| > 0 && |b| > 0 {
      StrLeAntisymmetric(a[1..], b[1..]);
      assert a == [a[0]] + a[1..];
      assert b == [b[0]] + b[1..];
    }
  }

  lemma {:induction false} StrLeTransitive(a: string, b: string, c: string)
    requires StrLe(a, b) && StrLe(b, c)
    ensures StrLe(a, c)
  {
    if |a| > 0 && |b| > 0 && |c| > 0 && a[0] == b[0] && b[0] == c[0] {
      StrLeTransitive(a[1..], b[1..], c[1..]);
    }
  }

  lemma StrLeTotal()
    ensures TotalOrder(StrLe)
  {
    forall a, b
      ensures StrLe(a, b) || StrLe(b, a)
    {
      StrLeTotal2(a, b);
    }
    forall a, b | StrLe(a, b) && StrLe(b, a)
      ensures a == b
    {
      StrLeAntisymmetric(a, b);
    }
    forall a, b, c | StrLe(a, b) && StrLe(b, c)
      ensures StrLe(a, c)
    {
      StrLeTransitive(a, b, c);
    }
  }

  // ---------------------------------------------------------------------
  // sorted(unique(ids)) for integer ids

  /** Strictly ascending, hence free of duplicates. */
  ghost predicate StrictlyAscending(s: seq<int>)
  {
    forall i, j :: 0 <= i < j < |s| ==> s[i] < s[j]
  }

  /** Inserts `x` into a strictly ascending list unless it is already there. */
  function InsertDistinct(x: int, s: seq<int>): (r: seq<int>)
    requires StrictlyAscending(s)
    ensures StrictlyAscending(r)
    ensures forall y :: y in r <==> y == x || y in s
  {
    if |s| == 0 then [x]
    else if x < s[0] then [x] + s
    else if x == s[0] then s
    else
      var rest := InsertDistinct(x, s[1..]);
      AscendingHead(s);
      AscendingCons(s[0], rest);
      [s[0]] + rest
  }

  lemma AscendingCons(h: int, s: seq<int>)
    requires StrictlyAscending(s)
    requires forall y :: y in s ==> h < y
    ensures StrictlyAscending([h] + s)
  {
    var r := [h] + s;
    forall i, j | 0 <= i < j < |r|
      ensures r[i] < r[j]
    {
      assert r[j] == s[j - 1];
      if i > 0 {
        assert r[i] == s[i - 1];
      } else {
        assert s[j - 1] in s;
      }
    }
  }

  lemma AscendingHead(s: seq<int>)
    requires StrictlyAscending(s) && |s| > 0
    ensures forall y :: y in s[1..] ==> s[0] < y
  {
    forall y | y in s[1..]
      ensures s[0] < y
    {
      var k :| 0 <= k < |s[1..]| && s[1..][k] == y;
      assert s[k + 1] == y;
    }
  }

  /** The distinct values of `s` in ascending order. */
  function SortedDistinct(s: seq<int>): (r: seq<int>)
    ensures StrictlyAscending(r)
    ensures forall y :: y in r <==> y in s
  {
    if |s| == 0 then []
    else InsertDistinct(s[|s| - 1], SortedDistinct(s[..|s| - 1]))
  }
}

=== FILE: uom_grouping.dfy ===
/** Business-rule relabelling `group_uoms_by_business_knowledge`. Two
    variants exist: the page's copying variant, which gives every row of a
    selected event type the constant id 9999, and the library's in-place
    variant, which gives them an id computed from the sorted selection with
    Python's `hash` (salted per process, so here an arbitrary function). Every
    other row keeps its raw `uom_id`. */
module UomGrouping {
  import opened Wrappers
  import opened Sorting
  import opened LossData

  /** A loss table together with its `grouped_uom_id` column, when present. */
  datatype Table = Table(events: seq<Event>, groupedUomId: Option<seq<int>>)

  /** The id the copying variant gives the combined group. */
  const CombinedGroupId: int := 9999

  /** `data['event_type'].isin(selected)`. */
  function SelectionMask(events: seq<Event>, selected: seq<string>): seq<bool>
  {
    seq(|events|, k requires 0 <= k < |events| => events[k].eventType in selected)
  }

  /** `mask.any()`. */
  function AnyTrue(mask: seq<bool>): (b: bool)
    ensures b <==> exists k :: 0 <= k < |mask| && mask[k]
  {
    if |mask| == 0 then false else mask[0] || AnyTrue(mask[1..])
  }

  /** `column.loc[mask] = v`. */
  function AssignWhere(column: seq<int>, mask: seq<bool>, v: int): seq<int>
    requires |mask| == |column|
  {
    seq(|column|, k requires 0 <= k < |column| => if mask[k] then v else column[k])
  }

  /** The shared shape of both variants: start from `uom_id`, and if the
      selection is non-empty and matches some row, overwrite the matching rows
      with `groupId`. */
  function Relabel(events: seq<Event>, selected: seq<string>, groupId: int): (ids: seq<int>)
    ensures |ids| == |events|
    ensures forall k :: 0 <= k < |events| ==>
      ids[k] == (if events[k].eventType in selected then groupId else events[k].uomId)
  {
    var initial := UomIds(events);
    if |selected| > 0 then
      var mask := SelectionMask(events, selected);
      if AnyTrue(mask) then AssignWhere(initial, mask, groupId)
      else
        assert forall k :: 0 <= k < |events| ==> !mask[k] && initial[k] == events[k].uomId;
        initial
    else initial
  }

  /** Copying variant: the caller's table is left as it was and a new table
      with the `grouped_uom_id` column is returned. */
  function GroupByBusinessKnowledge(data: Table, selected: seq<string>): (r: Table)
    ensures r.events == data.events
    ensures r.groupedUomId.Some? && |r.groupedUomId.value| == |data.events|
    ensures forall k :: 0 <= k < |data.events| ==>
      r.groupedUomId.value[k] == (if data.events[k].eventType in selected then CombinedGroupId else data.events[k].uomId)
  {
    Table(data.events, Some(Relabel(data.events, selected, CombinedGroupId)))
  }

  /** The id the in-place variant gives the combined group:
      `hash(tuple(sorted(selected)))`, the hash of the one ascending
      arrangement of the selected names, whatever order they were given in. */
  function SelectionId(selected: seq<string>, hash: seq<string> -> int): (id: int)
    ensures forall s :: multiset(s) == multiset(selected) && SortedBy(s, StrLe) ==> id == hash(s)
  {
    assert forall s :: multiset(s) == multiset(selected) && SortedBy(s, StrLe) ==> s == Sort(selected, StrLe) by {
      StrLeTotal();
      SortSorted(selected, StrLe);
      forall s | multiset(s) == multiset(selected) && SortedBy(s, StrLe)
        ensures s == Sort(selected, StrLe)
      {
        SortedUnique(s, Sort(selected, StrLe), StrLe);
      }
    }
    hash(Sort(selected, StrLe))
  }

  /** In-place variant, as a value: the table the caller holds afterwards.
      When the selection is non-empty but matches nothing, the source resets
      the column to `uom_id` a second time, which changes nothing. */
  function GroupByBusinessKnowledgeHashed(data: Table, selected: seq<string>, hash: seq<string> -> int): (r: Table)
    ensures r.events == data.events
    ensures r.groupedUomId.Some? && |r.groupedUomId.value| == |data.events|
    ensures forall k :: 0 <= k < |data.events| ==>
      r.groupedUomId.value[k] == (if data.events[k].eventType in selected then SelectionId(selected, hash) else data.events[k].uomId)
  {
    Table(data.events, Some(Relabel(data.events, selected, SelectionId(selected, hash))))
  }

  /** A pandas DataFrame as a mutable object, to model aliasing. */
  class Frame {
    var table: Table

    constructor (t: Table)
      ensures table == t
    {
      table := t;
    }
  }

  /** The in-place variant writes into the caller's frame and returns that
      same frame. */
  method GroupInPlace(data: Frame, selected: seq<string>, hash: seq<string> -> int) returns (r: Frame)
    modifies data
    ensures r == data
    ensures data.table == GroupByBusinessKnowledgeHashed(old(data.table), selected, hash)
  {
    data.table := GroupByBusinessKnowledgeHashed(data.table, selected, hash);
    r := data;
  }

  /** The copying variant returns a fresh frame and leaves the caller's alone. */
  method GroupCopy(data: Frame, selected: seq<string>) returns (r: Frame)
    ensures fresh(r)
    ensures r.table == GroupByBusinessKnowledge(data.table, selected)
  {
    r := new Frame(GroupByBusinessKnowledge(data.table, selected));
  }

  // ---------------------------------------------------------------------
  // Properties

  /** The distinct values of the grouped column. */
  function GroupedIdSet(t: Table): set<int>
    requires t.groupedUomId.Some?
  {
    set k | 0 <= k < |t.groupedUomId.value| :: t.groupedUomId.value[k]
  }

  /** An empty selection, or one that matches no row, leaves every row with
      its own `uom_id`, in both variants. */
  lemma NoMatchKeepsUomIds(data: Table, selected: seq<string>, hash: seq<string> -> int)
    requires forall k :: 0 <= k < |data.events| ==> data.events[k].eventType !in selected
    ensures GroupByBusinessKnowledge(data, selected).groupedUomId == Some(UomIds(data.events))
    ensures GroupByBusinessKnowledgeHashed(data, selected, hash).groupedUomId == Some(UomIds(data.events))
  {
  }

  /** Selecting every event type present in a non-empty table leaves exactly one
      distinct grouped id. */
  lemma SelectAllGivesOneGroup(data: Table, selected: seq<string>, hash: seq<string> -> int)
    requires |data.events| > 0
    requires forall k :: 0 <= k < |data.events| ==> data.events[k].eventType in selected
    ensures GroupedIdSet(GroupByBusinessKnowledge(data, selected)) == {CombinedGroupId}
    ensures GroupedIdSet(GroupByBusinessKnowledgeHashed(data, selected, hash)) == {SelectionId(selected, hash)}
  {
    var r := GroupByBusinessKnowledge(data, selected);
    assert r.groupedUomId.value[0] == CombinedGroupId;
    var h := GroupByBusinessKnowledgeHashed(data, selected, hash);
    assert h.groupedUomId.value[0] == SelectionId(selected, hash);
  }

  /** The in-place variant's id depends on the selection only through its
      sorted contents. */
  lemma SelectionIdOrderInsensitive(selected: seq<string>, selected': seq<string>, hash: seq<string> -> int)
    requires multiset(selected) == multiset(selected')
    ensures SelectionId(selected, hash) == SelectionId(selected', hash)
  {
    StrLeTotal();
    SortPermutationInvariant(selected, selected', StrLe);
  }

  /** Reordering the selection list does not change the in-place variant's result. */
  lemma HashedOrderInsensitive(data: Table, selected: seq<string>, selected': seq<string>, hash: seq<string> -> int)
    requires multiset(selected) == multiset(selected')
    ensures GroupByBusinessKnowledgeHashed(data, selected, hash) == GroupByBusinessKnowledgeHashed(data, selected', hash)
  {
    SelectionIdOrderInsensitive(selected, selected', hash);
    forall x
      ensures x in selected <==> x in selected'
    {
      assert x in selected <==> x in multiset(selected);
      assert x in selected' <==> x in multiset(selected');
    }
    var r1 := GroupByBusinessKnowledgeHashed(data, selected, hash).groupedUomId.value;
    var r2 := GroupByBusinessKnowledgeHashed(data, selected', hash).groupedUomId.value;
    assert r1 == r2;
  }

  /** 9999 is not reserved: a UoM whose raw id is 9999 is merged into the
      combined group even though its event type was not selected. */
  lemma CombinedIdCanCollide()
    ensures var data := Table([Event(9999, 10.0, 0, "Error", "Retail"), Event(1, 20.0, 0, "Fraud", "Retail")], None);
      var r := GroupByBusinessKnowledge(data, ["Fraud"]);
      && data.events[0].eventType !in ["Fraud"]
      && r.groupedUomId.value[0] == r.groupedUomId.value[1] == CombinedGroupId
  {
  }

  /** The table of tests/test_2.py: uom ids 1..5 with event types Fraud, IT
      Failure, Fraud, Damage, IT Failure. */
  function SampleTable(): Table
  {
    Table([Event(1, 0.0, 0, "Fraud", "Retail"), Event(2, 0.0, 0, "IT Failure", "Corporate"),
           Event(3, 0.0, 0, "Fraud", "Retail"), Event(4, 0.0, 0, "Damage", "Retail"),
           Event(5, 0.0, 0, "IT Failure", "Corporate")], None)
  }

  /** Selecting Fraud leaves 4 distinct ids; Fraud and IT Failure leave 2. */
  lemma SampleTableGroupCounts()
    ensures GroupedIdSet(GroupByBusinessKnowledge(SampleTable(), ["Fraud"])) == {CombinedGroupId, 2, 4, 5}
    ensures GroupedIdSet(GroupByBusinessKnowledge(SampleTable(), ["Fraud", "IT Failure"])) == {CombinedGroupId, 4}
  {
    var r1 := GroupByBusinessKnowledge(SampleTable(), ["Fraud"]);
    var v1 := r1.groupedUomId.value;
    assert v1 == [CombinedGroupId, 2, CombinedGroupId, 4, 5];
    assert v1[0] == CombinedGroupId && v1[1] == 2 && v1[3] == 4 && v1[4] == 5;
    assert GroupedIdSet(r1) == {CombinedGroupId, 2, 4, 5};
    var r2 := GroupByBusinessKnowledge(SampleTable(), ["Fraud", "IT Failure"]);
    var v2 := r2.groupedUomId.value;
    assert v2 == [CombinedGroupId, CombinedGroupId, CombinedGroupId, 4, CombinedGroupId];
    assert v2[0] == CombinedGroupId && v2[3] == 4;
    assert GroupedIdSet(r2) == {CombinedGroupId, 4};
  }


  /** The same test table under the hashed variant, which is the one the
      test module imports, selecting Fraud: the two Fraud rows share the hash
      of the selection, so the test's count of 4 distinct ids holds exactly
      when that hash is none of the other rows' ids 2, 4 and 5. */
  lemma SampleTableFraudHashed(hash: seq<string> -> int)
    ensures GroupedIdSet(GroupByBusinessKnowledgeHashed(SampleTable(), ["Fraud"], hash)) == {hash(["Fraud"]), 2, 4, 5}
    ensures |GroupedIdSet(GroupByBusinessKnowledgeHashed(SampleTable(), ["Fraud"], hash))| == 4
            <==> hash(["Fraud"]) !in {2, 4, 5}
  {
    var h := hash(["Fraud"]);
    assert SortedBy(["Fraud"], StrLe);
    assert SelectionId(["Fraud"], hash) == h;
    var r := GroupByBusinessKnowledgeHashed(SampleTable(), ["Fraud"], hash);
    var v := r.groupedUomId.value;
    assert v == [h, 2, h, 4, 5];
    assert v[0] == h && v[1] == 2 && v[3] == 4 && v[4] == 5;
    assert GroupedIdSet(r) == {h, 2, 4, 5};
    if h !in {2, 4, 5} {
      assert |{h} + {2, 4, 5}| == 4;
    } else {
      assert {h, 2, 4, 5} == {2, 4, 5};
    }
  }

  /** "Fraud" sorts before "IT Failure", so the selection is already sorted. */
  lemma FraudBeforeItFailure()
    ensures SortedBy(["Fraud", "IT Failure"], StrLe)
  {
    assert StrLe("Fraud", "IT Failure");
  }

  /** The hashed variant selecting Fraud and IT Failure: only UoM 4 is left
      out, so the test's count of 2 distinct ids holds exactly when the hash
      of the sorted selection is not 4. */
  lemma SampleTableFraudItHashed(hash: seq<string> -> int)
    ensures GroupedIdSet(GroupByBusinessKnowledgeHashed(SampleTable(), ["Fraud", "IT Failure"], hash))
            == {hash(["Fraud", "IT Failure"]), 4}
    ensures |GroupedIdSet(GroupByBusinessKnowledgeHashed(SampleTable(), ["Fraud", "IT Failure"], hash))| == 2
            <==> hash(["Fraud", "IT Failure"]) != 4
  {
    var sel := ["Fraud", "IT Failure"];
    var h := hash(sel);
    FraudBeforeItFailure();
    assert SelectionId(sel, hash) == h;
    var r := GroupByBusinessKnowledgeHashed(SampleTable(), sel, hash);
    var v := r.groupedUomId.value;
    assert v == [h, h, h, 4, h];
    assert v[0] == h && v[3] == 4;
    assert GroupedIdSet(r) == {h, 4};
    if h == 4 {
      assert {h, 4} == {4};
    }
  }
}

=== FILE: wrappers.dfy ===
/** Failure-carrying results for the operations that raise exceptions in the
    source: `Failure(e)` stands for "the call raises `e`". */
module Wrappers {

  datatype Result<+R, +E> = Success(value: R) | Failure(error: E)

  datatype Option<+T> = None | Some(value: T)
}
